=== FILE: README.md ===
# spindly in Dafny

`spindly` is a Python 2 extension module with one function,
`spindly.js(script, params=None, timeout=10)`. It runs a piece of JavaScript
in a fresh SpiderMonkey runtime and hands the script's value back to Python.
Three parts of `spindly.c` are modelled here:

- **The host-to-script marshaler.** This is `to_javascript_object` and
  `populate_javascript_object`. It turns Python values into engine values and
  binds the `params` dict on the global object.
- **The script-to-host marshaler.** This is `to_python_object`,
  `to_python_list`, `to_python_dict` and `to_python_datetime`. It turns the
  script's value back into a Python value.
- **The call lifecycle.** This is `spindly_js`, `shutdown`,
  `shutdown_watchdog` and the error reporter `raise_python_exception`. It covers
  which engine resources a call makes and releases, in what order, and how the
  call ends.

Values on both sides are finite, acyclic immutable datatypes (`Values`). An
engine object is an association list of properties in the order they were
first set (`Assoc`). A Python dict is an association list too. For a dict
passed in, its entries are in the order `PyDict_Next` visits them. For a dict
the marshaler builds, only its keys and lookups model the program; its entry
order is the model's own. Every engine read the C code checks can fail,
so it is an `Option` in the model:

- a property id that `JS_IdToValue` cannot turn into a value;
- a property value that `JS_GetPropertyById` cannot read;
- an array element that `JS_GetElement` cannot read;
- the array length that `JS_GetArrayLength` cannot read;
- each of the six date accessor calls.

`JS_NextProperty` failing ends the property loop early and keeps the dict built
so far. The model covers this with an object whose property list simply ends
at that point.

The engine is a parameter of the call. It decides which allocations succeed,
which standard globals exist, and what a script evaluates to. Evaluating a
script is a function supplied by the caller.

Modules:

| file | module | what it holds |
|---|---|---|
| `wrappers.dfy` | `Wrappers` | `Option` |
| `values.dfy` | `Values` | host and script values, C integer narrowing, C-string truncation, the normal form of returned values |
| `assoc.dfy` | `Assoc` | insertion-ordered dicts and property tables: `Put`, `PutAll`, `Get` |
| `to_script.dfy` | `ToScript` | `to_javascript_object`, `populate_javascript_object` |
| `to_host.dfy` | `ToHost` | `to_python_object` and its helpers, with a failure in a nested conversion propagated |
| `round_trip.dfy` | `RoundTrip` | the two marshalers composed |
| `report.dfy` | `Report` | `raise_python_exception` and the message it formats |
| `lifecycle.dfy` | `Lifecycle` | `spindly_js` as a trace of engine calls, and the resource protocol that trace follows |
| `as_written.dfy` | `AsWritten` | the container loops exactly as written, where a failed nested conversion dereferences NULL |

Behaviour of `spindly.c` that the model keeps, including some a caller might
not expect:

- **Wide integers.** An int or long too wide for 32 bits wraps modulo 2^32.
  There is no fallback to a double: every integer goes through `INT_TO_JSVAL`.
  A value outside a C long becomes -1 before it is narrowed.
- **Dict keys coming back.** When an object comes back as a dict, every key that
  does not convert to `None` is kept, integer ids included, not just strings.
- **Failures inside containers.** A nested value that fails to convert is passed
  on as NULL and dereferenced (see Findings). The model propagates the failure
  instead, which is what the code evidently intends.
- **How params are seen.** Each entry of `params` is bound as a global variable
  of its own. A script reads `x`, not `params.x`.
- **Dates are not range-checked.** `PyDateTime_FromDateAndTime` is the C-level
  constructor and checks no field. A date converts whenever its six accessor
  calls succeed, even in the year 10000. The C `datetime` stores the year in two
  bytes and every other field in one, so each field keeps only its low bits:
  the year -1 comes back as 65535, and the year 70000 as 4464.
- **Context failure.** When `JS_NewContext` fails, the runtime is destroyed but
  `JS_ShutDown` is not called.
- **Warnings fail the call.** The error reporter ignores the report's flags, so
  a warning reported during evaluation fails the call too.
- **Silent failure.** A failed evaluation that reported nothing returns NULL
  with no Python exception set. This is `ScriptFailed(None)`.

## Model

| member | source | states |
|---|---|---|
| Values.Wrap32 | spindly.c:72-75 | the 32-bit value `INT_TO_JSVAL` stores is in int32 range, congruent to its input modulo 2^32, and equal to it when it already fits |
| Values.AsLong | spindly.c:72-75 | `PyInt_AsLong`/`PyLong_AsLong` give back the value exactly when it fits a C long, and the error value -1 otherwise |
| Values.LowBits | spindly.c:130-132 | storing a field in a C datetime keeps the one value of its width (two bytes for the year, one byte for the rest) congruent to what was passed, and leaves a value already within that width unchanged |
| Values.UpToNul | spindly.c:183 | a string read back as a C string is the longest NUL-free prefix: the text is unchanged when it has no NUL, and otherwise cut exactly at the first one |
| ToScript.EngineInt | spindly.c:72-75 | a Python int or long becomes a 32-bit engine integer: unchanged when it fits 32 bits, the same value modulo 2^32 when it fits a C long, and -1 beyond that |
| ToScript.PropertyName | spindly.c:45-53 | only `str` and `unicode` keys name a property, and the name is the key's text up to, not including, its first NUL (all of it when there is none) |
| ToScript.Populate | spindly.c:40-59 | the populated object has a property under an id exactly when the target already had one or some string key of the dict gives that name |
| ToScript.ToScript | spindly.c:61-108 | which kind of engine value each kind of Python value becomes: strings to strings, floats to doubles, bools, ints and longs to 32-bit integers, lists and tuples to arrays, dicts to objects, datetimes to dates, and everything else to null |
| ToScript.PopulateGet | spindly.c:40-59 | after `populate_javascript_object`, a property named by a string key holds the converted value of the last entry with that name; every other property of the target object is unchanged |
| ToScript.DictObjectProperties | spindly.c:92-95 | the object made from a dict has a property exactly for each name some string key gives, holding the last such entry's converted value, and its property ids are unique |
| ToScript.ListTupleCollapse | spindly.c:76-91 | a list and a tuple with the same items become the same array: one element per item, at the same index |
| ToScript.ToScriptWellFormed | spindly.c:61-108 | every engine integer the marshaler creates fits 32 bits, at any depth of nesting |
| Assoc.Put | spindly.c:166 | storing a key makes it map to the new value, leaves every other key's lookup unchanged, and appends the entry when the key was absent |
| Assoc.PutAll | spindly.c:44-58 | after a run of stores, a key is present exactly when it was present before or some store assigned to it |
| Assoc.PutAllGet | spindly.c:156-172 | after a run of stores, a key holds the value of the last store to it, or its old value when nothing stored to it |
| Assoc.PutAllUniqueKeys | spindly.c:154-173 | a dict built by stores from a dict with unique keys still has unique keys |
| ToHost.ToHost | spindly.c:180-204 | each primitive converts and never fails: strings come back as unicode cut at the first NUL, bools as bools, ints as longs, doubles as floats, null and undefined as None; a date converts exactly when all six accessor calls succeed; an array whose length cannot be read comes back as the empty list; an object that cannot be iterated comes back as None, and any other object as a dict |
| ToHost.ToDateTime | spindly.c:110-133 | a date converts exactly when all six accessor calls succeed, with no range check on the fields; it then carries the fields read, the month made one-based, each stored in its C width (the year's low 16 bits, the other fields' low 8 bits), and zero microseconds |
| ToHost.ElementOutcome | spindly.c:141-142 | an element is left out exactly when `JS_GetElement` fails, fails exactly when its conversion fails, and is otherwise kept as converted |
| ToHost.PropertyOutcome | spindly.c:161-171 | a property is skipped exactly when its id cannot be turned into a value, its key converts to None, or its value cannot be read; it fails only when both reads succeeded and a conversion failed; a kept pair has a key other than None |
| ToHost.Compact | spindly.c:135-149 | the list fails exactly when some readable element failed to convert, and is never longer than the array |
| ToHost.Collect | spindly.c:151-178 | the dict fails exactly when some property failed to convert, and is otherwise the result of storing the kept pairs in iteration order |
| ToHost.ArrayCompaction | spindly.c:139-147 | the list holds the converted values of exactly the elements whose read succeeded, in increasing index order; an unreadable element is left out, not replaced by None |
| ToHost.CompactKeepsReadOrder | spindly.c:140-146 | the kept items are the outcomes at the kept positions, in order |
| ToHost.ObjectToDict | spindly.c:151-178 | a key is in the dict exactly when some property has an id converting to it (not None) and a readable value, and it holds the converted value of the last such property |
| ToHost.LastUpdateOfProperties | spindly.c:156-171 | the last store the property loop makes for a key is the value `LastValueFor` gives, defined on the properties directly |
| ToHost.ExcludedPropertyIrrelevant | spindly.c:161-171 | a property whose id is unreadable, whose key converts to None, or whose value is unreadable can be removed without changing the result |
| ToHost.ToHostCanonical | spindly.c:180-204 | every value that comes back is in normal form: no byte strings, plain ints, tuples or unrecognised objects; dict keys unique and never None; datetimes without microseconds and with every field within its C width |
| RoundTrip.RoundTrip | spindly.c:61-204 | any finite, acyclic Python value sent into the engine and straight back never fails, and comes back as its normal form: unicode strings cut at NUL, longs narrowed to 32 bits, lists, dicts keyed by the names of their string keys with the last entry winning, datetimes without microseconds and with each field stored in its C width, None for what is not recognised |
| RoundTrip.NormalizeIsCanonical | spindly.c:180-204 | the normal form of any Python value is a value the script-to-host marshaler can produce |
| RoundTrip.PrimitiveRoundTrip | spindly.c:62-75 | NUL-free strings come back as unicode with the same text, floats unchanged, 32-bit ints as longs of the same value, bools as the longs 0 and 1, None and unrecognised objects as None |
| RoundTrip.NulEndsCStrings | spindly.c:180-183 | the engine holds the whole text of a string holding a NUL, and it comes back cut at the NUL |
| RoundTrip.NulMergesPropertyNames | spindly.c:47-56 | dict keys equal up to a NUL set the same property, the later entry winning |
| RoundTrip.IntegersAreNarrowed | spindly.c:72-75 | 2^31 comes back as -2^31, 2^32 as 0, and 2^63 (beyond a C long) as -1 |
| RoundTrip.DateTimeRoundTrip | spindly.c:96-104 | a datetime is held with its month made zero-based and comes back with zero microseconds and each field stored again in its C width; any datetime whose fields fit those widths, which is every datetime Python can hold, comes back with the same fields |
| RoundTrip.MonthBoundaries | spindly.c:99 | January is held as month 0 and December as 11, and both come back as months 1 and 12 |
| RoundTrip.FieldsNotRangeChecked | spindly.c:130-132 | once all six accessor calls succeed, the datetime keeps the low bits of whatever they answered, the month made one-based; the year 10000 comes back as 10000, the year -1 as 65535, the year 70000 as 4464, and a month answered as 255 as month 0 |
| RoundTrip.DateAccessorFailure | spindly.c:112-129 | if any of the six accessor calls fails, the whole date fails to convert |
| RoundTrip.TupleComesBackAsList | spindly.c:84-91 | a tuple comes back as the list its items would make, each item round-tripped |
| Report.Decimal | spindly.c:29-30 | `%u` prints a nonempty string of decimal digits, without a colon or a leading zero |
| Report.DecimalValue | spindly.c:29-30 | the digits `%u` prints spell the number printed |
| Report.FormatMessage | spindly.c:26-31 | the message is passed through unchanged without a filename; otherwise it is the filename and a colon, then the line number taken modulo 2^32 in decimal with no leading zero, a colon, and the message at the end |
| Report.Raise | spindly.c:25-35 | the reporter always leaves a pending `ValueError` and raises the call's error flag |
| Report.RaiseAllOutcome | spindly.c:25-35 | after a run of reports the flag is raised exactly when something was reported (or it already was), and the pending exception is the one for the last report |
| Report.FormatMessageReadsBack | spindly.c:26-31 | without a filename the message is passed through; with a colon-free filename, the file name, the line number modulo 2^32 and the message can all be read back from the formatted text |
| Lifecycle.PhaseCounts | spindly.c:256-267 | along any trace that follows the protocol, each resource's phase agrees with how often it was made and released; a live watchdog implies a live context, a live context a live runtime, and `JS_ShutDown` implies a destroyed runtime |
| Lifecycle.ReleasedExactlyOnce | spindly.c:256-267 | in a completed trace the runtime, the context and the watchdog are each released exactly as often as they were made, at most once, and `JS_ShutDown` runs at most once and only after the runtime is destroyed |
| Lifecycle.TeardownOrder | spindly.c:324-334 | when the context is destroyed, the value converted or the runtime destroyed, every watchdog started so far has been stopped; the runtime goes after its context, the engine after the runtime |
| Lifecycle.Js | spindly.c:287-291 | params that are not a dict raise `TypeError` before any engine call; otherwise the first engine call creates the runtime |
| Lifecycle.JsFollowsProtocol | spindly.c:269-336 | every path through the call follows the resource protocol and leaves nothing allocated or running |
| Lifecycle.JsAllocationFailures | spindly.c:291-321 | the runtime, context and watchdog errors are each raised exactly when that allocation failed; the watchdog is tried exactly when there is a context and the timeout is positive; no raised error follows an evaluation; `JS_ShutDown` runs exactly on the paths that created a context |
| Lifecycle.JsEvaluation | spindly.c:311-335 | params are bound exactly when given and a context exists; the script runs exactly when every allocation succeeded; the call fails exactly when evaluation failed or something was reported, leaving the last report pending; otherwise the value is converted, and returned exactly when the conversion succeeds |
| Lifecycle.JsReleasesExactlyOnce | spindly.c:315-334 | in the call's own trace the runtime, the context and the watchdog are each released as often as they were made, at most once, and the watchdog is stopped before the value is converted or the context destroyed |
| AsWritten.ListAsWrittenAgrees | spindly.c:139-147 | the list loop as written gives the same list as `Compact` whenever nothing fails, and dereferences NULL exactly when `Compact` reports a failure |
| AsWritten.DictAsWrittenAgrees | spindly.c:156-172 | the property loop as written gives the same dict as `Collect` whenever nothing fails, and dereferences NULL exactly when `Collect` reports a failure |
| AsWritten.ListAsWritten | spindly.c:139-147 | the list loop as written crashes exactly when some element that was read fails to convert, and otherwise gives at most one item per element |
| AsWritten.DictAsWritten | spindly.c:156-172 | the property loop as written crashes exactly when some property that was read fails to convert |
| AsWritten.FailedAccessorInArray | spindly.c:141-145 | a date whose `getMonth` call fails does not convert on its own; as an array's only element it crashes the list loop as written, while the model fails the array |
| AsWritten.FailedAccessorInObject | spindly.c:164-168 | the same date as a property value crashes the dict loop as written, while the model fails the object |

## Left out

- `PyArg_ParseTuple` argument parsing is not modelled. The call starts from a parsed script, an optional `params` and a timeout. The default timeout of 10 is the caller's to supply.
- Character encodings are not modelled. This covers `PyUnicode_AsUTF8String`, the Latin-1 inflation in `JS_NewStringCopyN`, the deflation in `JS_EncodeString`, and `PyUnicode_FromString` failing on invalid UTF-8. Strings are sequences of characters on both sides.
- ToHost.ToHost: does not model a string that `PyUnicode_FromString` rejects as invalid UTF-8, because the model has no byte encoding; such a string converts successfully here.
- Evaluation itself is a parameter of the call. So are the operation callback `js_destroy` and the pending "timeout" exception it sets.
- The watchdog thread is reduced to whether `run_watchdog` succeeds and to `shutdown_watchdog` stopping it. Left out are its body (`poll` on a pipe, `JS_TriggerOperationCallback`), `pthread`, file descriptors, and `timeout * 1000` overflowing an int.
- Reference counting is not modelled. That includes `Py_DECREF` of the UTF-8 key buffer before `JS_SetProperty` reads it.
- `__proto__` and read-only standard globals are not modelled. The global object is an ordinary property table whose initial contents the engine supplies.
- Local time and DST in `JS_NewDateObject` are not modelled. A date is its six accessor results.
- ToHost.ToDateTime: does not model an invalid date (NaN time), whose accessors return doubles that `JSVAL_TO_INT` misreads; accessor results are always integers here.
- The `OverflowError` that `PyLong_AsLong` leaves pending is not modelled. The -1 it returns is.
- Python key equality across types (`1 == 1L == True`, `'a' == u'a'`) is not modelled. Dict keys compare structurally.
- Error reports raised during conversion are not modelled. A report can only be raised by evaluation.
- Subclasses of `datetime` that pass `PyDateTime_Check` are not modelled. A plain `date` fails that check and is sent as null, like every other object no branch accepts (`HOther`).
- Module registration (`initspindly`) and `setup.py` are not modelled.
- ToScript.NameId: gives every named property a string id. SpiderMonkey turns a name that spells an array index, such as `"0"`, into an integer id, so `{"0": 1}` comes back as `{0L: 1L}`, not `{u"0": 1L}`. That rule lives in the engine's own source, which is not part of this model.
- RoundTrip.RoundTrip: for a dict with a key that spells an array index, the key comes back as a long in the real program, not as the unicode name the model gives, for the reason stated for `ToScript.NameId`. A `"__proto__"` key at any depth is handed to `JS_SetProperty` (spindly.c:56), which runs the engine's prototype setter instead of creating a property, so in the real program that key is missing on the way back; the model treats it as an ordinary name, because the setter lives in the engine's own source.
- RoundTrip.RoundTrip: cyclic values cannot be expressed, because host and script values are finite trees here. spindly.c has no cycle guard: a list that contains itself recurses without bound at spindly.c:79-80 on the way in, and a script array or object that contains itself recurses without bound between spindly.c:141-142 or 165 and 199-201 on the way back, until the C stack overflows. The round trip is stated for finite, acyclic values only.
- ToHost.ToHost: a cyclic script value (`a[0] = a`, `o.o = o`) cannot be expressed; the program recurses on it until the C stack overflows, for the reason stated for `RoundTrip.RoundTrip`.
- ToHost.Collect: the dict the model builds lists its keys in the order the properties were first kept. CPython 2 iterates a dict in hash order, so `keys()` on the program's dict need not follow that order. The contracts compare dicts only through their keys and lookups, which do not depend on order.
- RoundTrip.DateTimeRoundTrip: a datetime's `tzinfo` is not modelled. Going in, spindly.c:96-103 reads only the six fields, so an aware datetime is passed as local wall-clock time; coming back, `PyDateTime_FromDateAndTime` (spindly.c:130-132) builds a naive datetime, so the time zone is lost and never restored. `HDateTime` carries no time zone, so the model's round trip cannot show this loss.
- RoundTrip.PrimitiveRoundTrip: a float comes back with the same bits in the model. SpiderMonkey's `DOUBLE_TO_JSVAL` canonicalises NaN, so a NaN with another bit pattern (a negative NaN, say) comes back as the engine's one NaN. That rule lives in the engine's header, which is not part of this model; every non-NaN double does come back with the same bits.
- ToHost.Compact: takes the array's elements to be exactly the reads below its length. spindly.c:137-139 declares `size_t length` and passes `&length` to `JS_GetArrayLength`, which in SpiderMonkey 1.8.5 writes a 32-bit `jsuint`; on a 64-bit build the upper half of `length` is never set, so the loop bound need not be the array's length, and reads past the end come back as `undefined`, that is as `None`. The engine's header is not part of this model, so the loop bound is taken as the length the engine reports.
- ToScript.DictObjectProperties: a key that spells an array index sets an integer-id property in the real program, not the string-id property stated, for the reason stated for `ToScript.NameId`; a `"__proto__"` key sets the object's prototype instead of a property, for the reason stated for `RoundTrip.RoundTrip`.

## Findings

| source | as written | input that shows it | evidently intended | confidence | as-written member | corrected member |
|---|---|---|---|---|---|---|
| spindly.c:141-145 | the result of converting an array element goes to `PyList_Append` and `Py_DECREF` without a NULL check | an array whose only element is a date whose `getMonth` call fails, as after `delete Date.prototype.getMonth` | the list conversion fails and returns NULL | not executed | AsWritten.FailedAccessorInArray | ToHost.Compact |
| spindly.c:162-168 | the converted key and value go to `PyDict_SetItem` and `Py_DECREF` without a NULL check | an object whose property value is a date whose `getMonth` call fails | the dict conversion fails and returns NULL | not executed | AsWritten.FailedAccessorInObject | ToHost.Collect |

=== FILE: as_written.dfy ===
/**
 * The container loops of the script-to-host marshaler as the C code is written.
 * A nested conversion that fails returns NULL. `to_python_list` passes it to
 * `PyList_Append`, which rejects it with a `SystemError`, and then to
 * `Py_DECREF`, which dereferences it; `to_python_dict` passes it to
 * `PyDict_SetItem`, which dereferences it. `ToHost` propagates the failure
 * instead.
 */
module AsWritten {
  import opened Wrappers
  import opened Values
  import Assoc
  import ToHost

  /** How a loop as written ends: with its value, or by dereferencing NULL. */
  datatype Fate<+T> = Finished(value: T) | Crashed

  /**
   * The item loop of `to_python_list` as written: it crashes exactly when some
   * element that was read fails to convert.
   */
  function ListAsWritten(os: seq<ToHost.Outcome<HostValue>>): (r: Fate<seq<HostValue>>)
    ensures r.Crashed? <==> exists i :: 0 <= i < |os| && os[i].Fail?
    ensures r.Finished? ==> |r.value| <= |os|
    decreases |os|
  {
    if |os| == 0 then Finished([])
    else
      assert forall i :: 0 <= i < |os| - 1 ==> os[..|os| - 1][i] == os[i];
      match ListAsWritten(os[..|os| - 1])
      case Crashed => Crashed
      case Finished(xs) =>
        match os[|os| - 1]
        case Skip => Finished(xs)
        case Keep(x) => Finished(xs + [x])
        case Fail => Crashed
  }

  /**
   * The property loop of `to_python_dict` as written: it crashes exactly when
   * some property that was read fails to convert.
   */
  function DictAsWritten(acc: seq<(HostValue, HostValue)>, os: seq<ToHost.Outcome<(HostValue, HostValue)>>)
    : (r: Fate<seq<(HostValue, HostValue)>>)
    ensures r.Crashed? <==> exists i :: 0 <= i < |os| && os[i].Fail?
    decreases |os|
  {
    if |os| == 0 then Finished(acc)
    else
      assert forall i :: 1 <= i < |os| ==> os[1..][i - 1] == os[i];
      match os[0]
      case Skip => DictAsWritten(acc, os[1..])
      case Keep(e) => DictAsWritten(Assoc.Put(acc, e.0, e.1), os[1..])
      case Fail => Crashed
  }

  /**
   * The as-written list loop and `Compact` agree on every input where nothing
   * fails; exactly where `Compact` reports a failure, the loop as written
   * crashes.
   */
  lemma {:induction false} ListAsWrittenAgrees(os: seq<ToHost.Outcome<HostValue>>)
    ensures ListAsWritten(os) == if ToHost.Compact(os).Some? then Finished(ToHost.Compact(os).value) else Crashed
    decreases |os|
  {
    if |os| > 0 {
      ListAsWrittenAgrees(os[..|os| - 1]);
    }
  }

  /** The same for the dict loop and `Collect`. */
  lemma {:induction false} DictAsWrittenAgrees(acc: seq<(HostValue, HostValue)>, os: seq<ToHost.Outcome<(HostValue, HostValue)>>)
    ensures DictAsWritten(acc, os) == if ToHost.Collect(acc, os).Some? then Finished(ToHost.Collect(acc, os).value) else Crashed
    decreases |os|
  {
    if |os| > 0 {
      match os[0]
      case Skip => DictAsWrittenAgrees(acc, os[1..]);
      case Keep(e) => DictAsWrittenAgrees(Assoc.Put(acc, e.0, e.1), os[1..]);
      case Fail =>
    }
  }

  /**
   * A date whose `getMonth` call fails, as it does once a script has deleted
   * `Date.prototype.getMonth`.
   */
  const MonthUnreadable: ScriptValue := SDate(DateReads(Some(2024), None, Some(1), Some(0), Some(0), Some(0)))

  /**
   * The counterexample: on its own, the date fails to convert (`to_python_datetime`
   * returns NULL); as the only element of an array, the loop as written crashes,
   * while `ToHost` fails the array.
   */
  lemma FailedAccessorInArray()
    ensures ToHost.ToHost(MonthUnreadable) == None
    ensures ListAsWritten(ToHost.ElementOutcomes(SArray(true, [Some(MonthUnreadable)]))) == Crashed
    ensures ToHost.ToHost(SArray(true, [Some(MonthUnreadable)])) == None
  {
    var os := ToHost.ElementOutcomes(SArray(true, [Some(MonthUnreadable)]));
    assert os[0] == ToHost.Fail;
  }

  /** The same date as the value of an object's property crashes the dict loop as written. */
  lemma FailedAccessorInObject()
    ensures DictAsWritten([], ToHost.PropertyOutcomes(SObject(true, [(Some(SString("d")), Some(MonthUnreadable))]))) == Crashed
    ensures ToHost.ToHost(SObject(true, [(Some(SString("d")), Some(MonthUnreadable))])) == None
  {
    var os := ToHost.PropertyOutcomes(SObject(true, [(Some(SString("d")), Some(MonthUnreadable))]));
    assert os[0] == ToHost.Fail;
  }
}

=== FILE: assoc.dfy ===
/**
 * Insertion-ordered association lists. Assigning to a key that is already
 * present updates that entry in place; a new key is appended at the end. An
 * engine object's own properties are kept this way. A Python dict the marshaler
 * builds is kept this way too, but only its keys and lookups model the program:
 * CPython 2 iterates a dict in hash order, not in the order of this list.
 */
module Assoc {
  import opened Wrappers

  /** The value of the first entry with key `k`. */
  function Get<K(==, !new), V>(table: seq<(K, V)>, k: K): (r: Option<V>)
    ensures r.Some? <==> HasKey(table, k)
  {
    if |table| == 0 then None
    else if table[0].0 == k then Some(table[0].1)
    else Get(table[1..], k)
  }

  predicate HasKey<K(==, !new), V>(table: seq<(K, V)>, k: K) {
    exists i :: 0 <= i < |table| && table[i].0 == k
  }

  predicate UniqueKeys<K(==, !new), V>(table: seq<(K, V)>) {
    forall i, j :: 0 <= i < j < |table| ==> table[i].0 != table[j].0
  }

  /** Assign `v` to `k`: update the entry in place if there is one, else append. */
  function Put<K(==, !new), V>(table: seq<(K, V)>, k: K, v: V): (r: seq<(K, V)>)
    ensures Get(r, k) == Some(v)
    ensures forall k' :: k' != k ==> Get(r, k') == Get(table, k')
    ensures !HasKey(table, k) ==> r == table + [(k, v)]
  {
    if |table| == 0 then [(k, v)]
    else if table[0].0 == k then [(k, v)] + table[1..]
    else [table[0]] + Put(table[1..], k, v)
  }

  /** `Put` introduces no entry other than `(k, v)`. */
  lemma {:induction false} PutEntries<K(!new), V>(table: seq<(K, V)>, k: K, v: V)
    ensures forall e :: e in Put(table, k, v) ==> e == (k, v) || e in table
    decreases |table|
  {
    if |table| > 0 && table[0].0 != k {
      PutEntries(table[1..], k, v);
      assert Put(table, k, v) == [table[0]] + Put(table[1..], k, v);
      assert forall e :: e in table[1..] ==> e in table;
    } else if |table| > 0 {
      assert forall e :: e in table[1..] ==> e in table;
    }
  }

  lemma TailUnique<K(!new), V>(table: seq<(K, V)>)
    requires |table| > 0 && UniqueKeys(table)
    ensures UniqueKeys(table[1..])
    ensures forall e :: e in table[1..] ==> e.0 != table[0].0
  {
    var tail := table[1..];
    forall i, j | 0 <= i < j < |tail| ensures tail[i].0 != tail[j].0 {
      assert tail[i] == table[i + 1] && tail[j] == table[j + 1];
    }
    forall e | e in tail ensures e.0 != table[0].0 {
      var j :| 0 <= j < |tail| && tail[j] == e;
      assert tail[j] == table[j + 1];
    }
  }

  lemma ConsUnique<K(!new), V>(head: (K, V), rest: seq<(K, V)>)
    requires UniqueKeys(rest)
    requires forall e :: e in rest ==> e.0 != head.0
    ensures UniqueKeys([head] + rest)
  {
    var r := [head] + rest;
    forall i, j | 0 <= i < j < |r| ensures r[i].0 != r[j].0 {
      assert r[j] == rest[j - 1] && r[j] in rest;
      if i > 0 { assert r[i] == rest[i - 1]; }
    }
  }

  /** `Put` keeps keys unique. */
  lemma {:induction false} PutKeepsUnique<K(!new), V>(table: seq<(K, V)>, k: K, v: V)
    requires UniqueKeys(table)
    ensures UniqueKeys(Put(table, k, v))
    decreases |table|
  {
    if |table| > 0 {
      var tail := table[1..];
      TailUnique(table);
      if table[0].0 == k {
        ConsUnique((k, v), tail);
      } else {
        PutKeepsUnique(tail, k, v);
        PutEntries(tail, k, v);
        ConsUnique(table[0], Put(tail, k, v));
      }
    }
  }

  /** Apply, in order, every update that is present; `None` updates are skipped. */
  function PutAll<K(==, !new), V>(table: seq<(K, V)>, updates: seq<Option<(K, V)>>): (r: seq<(K, V)>)
    ensures forall k :: HasKey(r, k) <==> HasKey(table, k) || Updated(updates, k)
    decreases |updates|
  {
    if |updates| == 0 then table
    else
      assert forall k :: Updated(updates, k) <==> (updates[0].Some? && updates[0].value.0 == k) || Updated(updates[1..], k) by {
        forall k ensures Updated(updates, k) ==> (updates[0].Some? && updates[0].value.0 == k) || Updated(updates[1..], k) {
          if Updated(updates, k) {
            var i :| 0 <= i < |updates| && updates[i].Some? && updates[i].value.0 == k;
            if i > 0 { assert updates[1..][i - 1] == updates[i]; }
          }
        }
      }
      match updates[0]
      case None => PutAll(table, updates[1..])
      case Some(kv) =>
        assert forall k :: HasKey(Put(table, kv.0, kv.1), k) <==> HasKey(table, k) || k == kv.0 by {
          forall k ensures HasKey(Put(table, kv.0, kv.1), k) <==> HasKey(table, k) || k == kv.0 {
            assert Get(Put(table, kv.0, kv.1), k).Some? <==> HasKey(Put(table, kv.0, kv.1), k);
            assert Get(table, k).Some? <==> HasKey(table, k);
          }
        }
        PutAll(Put(table, kv.0, kv.1), updates[1..])
  }

  /** Some present update in the run assigns to `k`. */
  predicate Updated<K(==, !new), V>(updates: seq<Option<(K, V)>>, k: K) {
    exists i :: 0 <= i < |updates| && updates[i].Some? && updates[i].value.0 == k
  }

  /** The value of the last present update with key `k`, if any. */
  function LastUpdate<K(==, !new), V>(updates: seq<Option<(K, V)>>, k: K): Option<V>
    decreases |updates|
  {
    if |updates| == 0 then None
    else match LastUpdate(updates[1..], k)
      case Some(v) => Some(v)
      case None =>
        if updates[0].Some? && updates[0].value.0 == k then Some(updates[0].value.1) else None
  }

  /** After a run of updates, a key holds the last value assigned to it, or its old value. */
  lemma {:induction false} PutAllGet<K(!new), V>(table: seq<(K, V)>, updates: seq<Option<(K, V)>>, k: K)
    ensures Get(PutAll(table, updates), k) ==
      (match LastUpdate(updates, k) case Some(v) => Some(v) case None => Get(table, k))
    decreases |updates|
  {
    if |updates| > 0 {
      match updates[0]
      case None => PutAllGet(table, updates[1..], k);
      case Some(kv) => PutAllGet(Put(table, kv.0, kv.1), updates[1..], k);
    }
  }

  lemma {:induction false} PutAllUniqueKeys<K(!new), V>(table: seq<(K, V)>, updates: seq<Option<(K, V)>>)
    requires UniqueKeys(table)
    ensures UniqueKeys(PutAll(table, updates))
    decreases |updates|
  {
    if |updates| > 0 {
      match updates[0]
      case None => PutAllUniqueKeys(table, updates[1..]);
      case Some(kv) =>
        PutKeepsUnique(table, kv.0, kv.1);
        PutAllUniqueKeys(Put(table, kv.0, kv.1), updates[1..]);
    }
  }
}

=== FILE: lifecycle.dfy ===
/**
 * One call of `spindly.js(script, params, timeout)`: the engine resources it
 * allocates and releases, written as a trace of engine calls, and the protocol
 * those calls must follow.
 */
module Lifecycle {
  import opened Wrappers
  import opened Values
  import ToScript
  import ToHost
  import opened Report

  // ---------------------------------------------------------------------------
  // The protocol

  /** Where a resource is in its life: not yet made, usable, or released. */
  datatype Phase = Absent | Live | Gone

  /** The runtime, the context, the watchdog thread, and whether `JS_ShutDown` has run. */
  datatype Resources = Resources(runtime: Phase, context: Phase, watchdog: Phase, shutDown: bool)

  const Initial: Resources := Resources(Absent, Absent, Absent, false)

  /** An engine-facing call made by `spindly_js`; `ok` records whether an allocation succeeded. */
  datatype Event =
    | NewRuntime(ok: bool)      // JS_NewRuntime
    | NewContext(ok: bool)      // JS_NewContext
    | BindParams                // populate_javascript_object on the global object
    | StartWatchdog(ok: bool)   // run_watchdog
    | Evaluate                  // JS_EvaluateScript
    | StopWatchdog              // shutdown_watchdog
    | Convert                   // to_python_object
    | DestroyContext            // JS_DestroyContext
    | DestroyRuntime            // JS_DestroyRuntime
    | ShutDownEngine            // JS_ShutDown

  /**
   * The state after one call, or `None` when the call is not allowed there:
   * everything that uses the context needs it live; the context is destroyed
   * only once the watchdog (which holds a pointer to it) is stopped; the runtime
   * is destroyed only once its context is gone; the engine is shut down only
   * after the runtime is destroyed.
   */
  function Step(s: Resources, e: Event): Option<Resources> {
    match e
    case NewRuntime(ok) =>
      if s.runtime == Absent && !s.shutDown then Some(s.(runtime := if ok then Live else Absent)) else None
    case NewContext(ok) =>
      if s.runtime == Live && s.context == Absent then Some(s.(context := if ok then Live else Absent)) else None
    case BindParams =>
      if s.context == Live && s.watchdog == Absent then Some(s) else None
    case StartWatchdog(ok) =>
      if s.context == Live && s.watchdog == Absent then Some(s.(watchdog := if ok then Live else Absent)) else None
    case Evaluate =>
      if s.context == Live then Some(s) else None
    case StopWatchdog =>
      if s.watchdog == Live then Some(s.(watchdog := Gone)) else None
    case Convert =>
      if s.context == Live && s.watchdog != Live then Some(s) else None
    case DestroyContext =>
      if s.context == Live && s.watchdog != Live then Some(s.(context := Gone)) else None
    case DestroyRuntime =>
      if s.runtime == Live && s.context != Live then Some(s.(runtime := Gone)) else None
    case ShutDownEngine =>
      if s.runtime == Gone && !s.shutDown then Some(s.(shutDown := true)) else None
  }

  /** The state a trace leads to from the start, or `None` if some call breaks the protocol. */
  function Run(t: seq<Event>): Option<Resources>
    decreases |t|
  {
    if |t| == 0 then Some(Initial)
    else match Run(t[..|t| - 1])
      case None => None
      case Some(s) => Step(s, t[|t| - 1])
  }

  /** Nothing is left allocated or running. */
  predicate Settled(s: Resources) {
    s.runtime != Live && s.context != Live && s.watchdog != Live
  }

  /** The trace follows the protocol and releases everything it acquired. */
  predicate Completes(t: seq<Event>) {
    Run(t).Some? && Settled(Run(t).value)
  }

  function Count(t: seq<Event>, e: Event): nat
    decreases |t|
  {
    if |t| == 0 then 0 else Count(t[..|t| - 1], e) + (if t[|t| - 1] == e then 1 else 0)
  }

  /** A phase agrees with how often the resource was made and released. */
  predicate Agrees(p: Phase, made: nat, released: nat) {
    match p
    case Absent => made == 0 && released == 0
    case Live => made == 1 && released == 0
    case Gone => made == 1 && released == 1
  }

  lemma RunSnoc(t: seq<Event>, e: Event)
    ensures Run(t + [e]) == if Run(t).Some? then Step(Run(t).value, e) else None
  {
    assert (t + [e])[..|t|] == t;
  }

  /** Every prefix of a trace that follows the protocol follows it too. */
  lemma {:induction false} RunPrefix(t: seq<Event>, k: nat)
    requires Run(t).Some? && k <= |t|
    ensures Run(t[..k]).Some?
    decreases |t|
  {
    if k < |t| {
      RunPrefix(t[..|t| - 1], k);
      assert t[..|t| - 1][..k] == t[..k];
    } else {
      assert t[..k] == t;
    }
  }

  /** The state of each resource is a summary of the calls that made and released it. */
  lemma {:induction false} PhaseCounts(t: seq<Event>)
    requires Run(t).Some?
    ensures Agrees(Run(t).value.runtime, Count(t, NewRuntime(true)), Count(t, DestroyRuntime))
    ensures Agrees(Run(t).value.context, Count(t, NewContext(true)), Count(t, DestroyContext))
    ensures Agrees(Run(t).value.watchdog, Count(t, StartWatchdog(true)), Count(t, StopWatchdog))
    ensures Count(t, ShutDownEngine) == if Run(t).value.shutDown then 1 else 0
    ensures Run(t).value.watchdog == Live ==> Run(t).value.context == Live
    ensures Run(t).value.context == Live ==> Run(t).value.runtime == Live
    ensures Run(t).value.shutDown ==> Run(t).value.runtime == Gone
    decreases |t|
  {
    if |t| > 0 {
      PhaseCounts(t[..|t| - 1]);
    }
  }

  /**
   * Exactly once: in a completed trace the runtime, the context and the watchdog
   * are each released exactly as often as they were made, which is at most once,
   * and `JS_ShutDown` runs at most once, only after the runtime is destroyed.
   */
  lemma ReleasedExactlyOnce(t: seq<Event>)
    requires Completes(t)
    ensures Count(t, NewRuntime(true)) == Count(t, DestroyRuntime) <= 1
    ensures Count(t, NewContext(true)) == Count(t, DestroyContext) <= 1
    ensures Count(t, StartWatchdog(true)) == Count(t, StopWatchdog) <= 1
    ensures Count(t, ShutDownEngine) <= Count(t, DestroyRuntime)
  {
    PhaseCounts(t);
  }

  /**
   * Ordering: at the moment the context is destroyed, the script's value is
   * converted, or the runtime is destroyed, every watchdog started so far has
   * been stopped; the runtime is destroyed only after its context; the engine
   * is shut down only after the runtime is destroyed.
   */
  lemma TeardownOrder(t: seq<Event>, j: nat)
    requires Run(t).Some? && j < |t|
    ensures t[j].DestroyContext? || t[j].Convert? || t[j].DestroyRuntime? ==>
      Count(t[..j], StartWatchdog(true)) == Count(t[..j], StopWatchdog)
    ensures t[j].DestroyRuntime? ==> Count(t[..j], NewContext(true)) == Count(t[..j], DestroyContext)
    ensures t[j].ShutDownEngine? ==> Count(t[..j], DestroyRuntime) == 1
  {
    RunPrefix(t, j + 1);
    var pre := t[..j];
    assert t[..j + 1] == pre + [t[j]];
    RunSnoc(pre, t[j]);
    var s := Run(pre).value;
    assert Step(s, t[j]).Some?;
    PhaseCounts(pre);
  }

  // ---------------------------------------------------------------------------
  // The call

  /** What the engine does with the script: whether it ran to completion, its value, and the errors it reported. */
  datatype Evaluation = Evaluation(completed: bool, value: ScriptValue, reports: seq<(string, ErrorReport)>)

  /**
   * The engine as the call sees it: which allocations succeed, the global object
   * after `JS_InitStandardClasses`, and the evaluation of a script against a
   * global object under a timeout in seconds.
   */
  datatype Engine = Engine(
    runtimeAvailable: bool,
    contextAvailable: bool,
    watchdogAvailable: bool,
    standardGlobals: seq<Property>,
    evaluate: (string, seq<Property>, int) -> Evaluation)

  /** How a call ends: a value, an exception raised by the call itself, or a NULL return. */
  datatype CallResult =
    | Returned(value: HostValue)
      /** The script failed; whatever exception the error reporter left pending is raised. */
    | ScriptFailed(pending: Option<PyError>)
    | Raised(error: PyError)
    | ConversionFailed

  const PARAMS_NOT_DICT: string := "params must be a dict"
  const NO_RUNTIME: string := "unable to initialize JS runtime\n"
  const NO_CONTEXT: string := "unable to initialize JS context\n"
  const NO_WATCHDOG: string := "unable to initialize JS watchdog\n"

  /** `shutdown`: the context, then the runtime, then the engine. */
  const Shutdown: seq<Event> := [DestroyContext, DestroyRuntime, ShutDownEngine]

  predicate ParamsAccepted(params: Option<HostValue>) {
    params.None? || params.value.HDict?
  }

  /** The global object the script runs against. */
  function Globals(engine: Engine, params: Option<HostValue>): seq<Property>
    requires ParamsAccepted(params)
  {
    if params.Some? then ToScript.Populate(engine.standardGlobals, params.value) else engine.standardGlobals
  }

  /** The evaluation a call reaches, if it gets that far. */
  function EvaluationOf(script: string, params: Option<HostValue>, timeout: int, engine: Engine): Evaluation
    requires ParamsAccepted(params)
  {
    engine.evaluate(script, Globals(engine, params), timeout)
  }

  predicate WatchdogAttempted(t: seq<Event>) {
    StartWatchdog(true) in t || StartWatchdog(false) in t
  }

  /** How a call ends, and the engine calls it made on the way. */
  datatype Call = Call(result: CallResult, trace: seq<Event>)

  /**
   * `spindly_js` after argument parsing. `params` is `None` when the caller
   * passed none; the default timeout of 10 seconds is the caller's to supply.
   */
  function Js(script: string, params: Option<HostValue>, timeout: int, engine: Engine): (c: Call)
    ensures !ParamsAccepted(params) ==> c.trace == [] && c.result.Raised? && c.result.error.kind == TypeError
    ensures ParamsAccepted(params) ==> |c.trace| > 0 && c.trace[0] == NewRuntime(engine.runtimeAvailable)
  {
    if !ParamsAccepted(params) then Call(Raised(PyError(TypeError, PARAMS_NOT_DICT)), [])
    else if !engine.runtimeAvailable then Call(Raised(PyError(SystemError, NO_RUNTIME)), [NewRuntime(false)])
    else if !engine.contextAvailable then
      // The runtime is destroyed, but `JS_ShutDown` is not called on this path.
      Call(Raised(PyError(SystemError, NO_CONTEXT)), [NewRuntime(true), NewContext(false), DestroyRuntime])
    else
      var bound := [NewRuntime(true), NewContext(true)] + (if params.Some? then [BindParams] else []);
      if timeout > 0 && !engine.watchdogAvailable then
        Call(Raised(PyError(SystemError, NO_WATCHDOG)), bound + [StartWatchdog(false)] + Shutdown)
      else
        var started := bound + (if timeout > 0 then [StartWatchdog(true)] else []);
        var ev := engine.evaluate(script, Globals(engine, params), timeout);
        // The watchdog is stopped whenever one was started, before anything else.
        var evaluated := started + [Evaluate] + (if timeout > 0 then [StopWatchdog] else []);
        var slot := RaiseAll(NoError, ev.reports);
        if !ev.completed || slot.flag then Call(ScriptFailed(slot.pending), evaluated + Shutdown)
        else
          var converted := ToHost.ToHost(ev.value);
          Call(if converted.Some? then Returned(converted.value) else ConversionFailed, evaluated + [Convert] + Shutdown)
  }

  /** How a call that reached evaluation ends. */
  predicate EvaluatedCall(c: Call, ev: Evaluation) {
    && (c.result.ScriptFailed? <==> !ev.completed || |ev.reports| > 0)
    && (c.result.ScriptFailed? ==> c.result.pending == RaiseAll(NoError, ev.reports).pending)
    && (!c.result.ScriptFailed? ==> Convert in c.trace && (c.result.Returned? <==> ToHost.ToHost(ev.value).Some?))
    && (c.result.Returned? ==> ToHost.ToHost(ev.value) == Some(c.result.value))
  }

  /** The state `shutdown` leaves behind, from a live runtime and context and a stopped watchdog. */
  lemma RunShutdown(t: seq<Event>, s: Resources)
    requires Run(t) == Some(s)
    requires s.runtime == Live && s.context == Live && s.watchdog != Live && !s.shutDown
    ensures Completes(t + Shutdown)
  {
    RunSnoc(t, DestroyContext);
    RunSnoc(t + [DestroyContext], DestroyRuntime);
    RunSnoc(t + [DestroyContext] + [DestroyRuntime], ShutDownEngine);
    assert t + [DestroyContext] + [DestroyRuntime] + [ShutDownEngine] == t + Shutdown;
  }

  /** From a live runtime and context: evaluation, with or without a watchdog, then either ending. */
  lemma RunEvaluated(bound: seq<Event>, s: Resources, watchdog: bool)
    requires Run(bound) == Some(s)
    requires s.runtime == Live && s.context == Live && s.watchdog == Absent && !s.shutDown
    ensures var evaluated := bound + (if watchdog then [StartWatchdog(true)] else []) + [Evaluate] +
        (if watchdog then [StopWatchdog] else []);
      Completes(evaluated + Shutdown) && Completes(evaluated + [Convert] + Shutdown)
  {
    var started := bound + (if watchdog then [StartWatchdog(true)] else []);
    var evaluated := started + [Evaluate] + (if watchdog then [StopWatchdog] else []);
    var s2 := if watchdog then s.(watchdog := Gone) else s;
    if watchdog {
      RunSnoc(bound, StartWatchdog(true));
      RunSnoc(started, Evaluate);
      RunSnoc(started + [Evaluate], StopWatchdog);
    } else {
      assert started == bound;
      RunSnoc(started, Evaluate);
      assert evaluated == started + [Evaluate];
    }
    assert Run(evaluated) == Some(s2);
    RunShutdown(evaluated, s2);
    RunSnoc(evaluated, Convert);
    RunShutdown(evaluated + [Convert], s2);
  }

  /** Every path through the call follows the protocol and releases what it acquired. */
  lemma JsFollowsProtocol(script: string, params: Option<HostValue>, timeout: int, engine: Engine)
    ensures Completes(Js(script, params, timeout, engine).trace)
  {
    var c := Js(script, params, timeout, engine);
    if ParamsAccepted(params) && engine.runtimeAvailable {
      RunSnoc([], NewRuntime(true));
      RunSnoc([NewRuntime(true)], NewContext(engine.contextAvailable));
      var t2 := [NewRuntime(true)] + [NewContext(engine.contextAvailable)];
      if !engine.contextAvailable {
        RunSnoc(t2, DestroyRuntime);
        assert t2 + [DestroyRuntime] == c.trace;
      } else {
        var s := Initial.(runtime := Live, context := Live);
        var bound := [NewRuntime(true), NewContext(true)] + (if params.Some? then [BindParams] else []);
        assert t2 == [NewRuntime(true), NewContext(true)];
        RunSnoc(t2, BindParams);
        assert Run(bound) == Some(s);
        if timeout > 0 && !engine.watchdogAvailable {
          RunSnoc(bound, StartWatchdog(false));
          RunShutdown(bound + [StartWatchdog(false)], s);
        } else {
          RunEvaluated(bound, s, timeout > 0);
        }
      }
    }
  }

  /**
   * Which allocation failure the call reports: the runtime's, the context's, or
   * the watchdog's, each exactly when that allocation failed; the watchdog is
   * tried exactly when there is a context and the timeout is positive; and
   * `JS_ShutDown` runs exactly on the paths that created a context.
   */
  lemma JsAllocationFailures(script: string, params: Option<HostValue>, timeout: int, engine: Engine)
    ensures var c := Js(script, params, timeout, engine);
      && (c.result == Raised(PyError(SystemError, NO_RUNTIME)) <==> ParamsAccepted(params) && !engine.runtimeAvailable)
      && (c.result == Raised(PyError(SystemError, NO_CONTEXT)) <==>
            ParamsAccepted(params) && engine.runtimeAvailable && !engine.contextAvailable)
      && (WatchdogAttempted(c.trace) <==>
            ParamsAccepted(params) && engine.runtimeAvailable && engine.contextAvailable && timeout > 0)
      && (c.result == Raised(PyError(SystemError, NO_WATCHDOG)) <==> WatchdogAttempted(c.trace) && !engine.watchdogAvailable)
      && (c.result.Raised? ==> Evaluate !in c.trace)
      && (ShutDownEngine in c.trace <==> NewContext(true) in c.trace)
  {
    JsRaisedErrors(script, params, timeout, engine);
    JsAllocationCalls(script, params, timeout, engine);
  }

  /** The error a call raises, and the allocation that made it raise it. */
  lemma JsRaisedErrors(script: string, params: Option<HostValue>, timeout: int, engine: Engine)
    ensures var c := Js(script, params, timeout, engine);
      && (c.result == Raised(PyError(SystemError, NO_RUNTIME)) <==> ParamsAccepted(params) && !engine.runtimeAvailable)
      && (c.result == Raised(PyError(SystemError, NO_CONTEXT)) <==>
            ParamsAccepted(params) && engine.runtimeAvailable && !engine.contextAvailable)
      && (c.result == Raised(PyError(SystemError, NO_WATCHDOG)) <==>
            ParamsAccepted(params) && engine.runtimeAvailable && engine.contextAvailable && timeout > 0 && !engine.watchdogAvailable)
      && (c.result.Raised? ==> Evaluate !in c.trace)
  {
    var c := Js(script, params, timeout, engine);
    if ParamsAccepted(params) && engine.runtimeAvailable && engine.contextAvailable && !(timeout > 0 && !engine.watchdogAvailable) {
      assert !c.result.Raised?;
    }
  }

  /** Which allocations a call attempts, and when it shuts the engine down. */
  lemma JsAllocationCalls(script: string, params: Option<HostValue>, timeout: int, engine: Engine)
    ensures var c := Js(script, params, timeout, engine);
      && (WatchdogAttempted(c.trace) <==>
            ParamsAccepted(params) && engine.runtimeAvailable && engine.contextAvailable && timeout > 0)
      && (ShutDownEngine in c.trace <==> NewContext(true) in c.trace)
  {
    JsWatchdogAttempt(script, params, timeout, engine);
    JsShutDownWithContext(script, params, timeout, engine);
  }

  /** A watchdog is attempted exactly when a runtime and context exist and a timeout is set. */
  lemma JsWatchdogAttempt(script: string, params: Option<HostValue>, timeout: int, engine: Engine)
    ensures var c := Js(script, params, timeout, engine);
      WatchdogAttempted(c.trace) <==>
        ParamsAccepted(params) && engine.runtimeAvailable && engine.contextAvailable && timeout > 0
  {
    var c := Js(script, params, timeout, engine);
    if !ParamsAccepted(params) {
    } else if !engine.runtimeAvailable {
      assert c.trace == [NewRuntime(false)];
    } else if !engine.contextAvailable {
      assert c.trace == [NewRuntime(true), NewContext(false), DestroyRuntime];
    } else {
      var bound := [NewRuntime(true), NewContext(true)] + (if params.Some? then [BindParams] else []);
      assert StartWatchdog(true) !in bound && StartWatchdog(false) !in bound;
      assert StartWatchdog(true) !in Shutdown && StartWatchdog(false) !in Shutdown;
      if timeout > 0 && !engine.watchdogAvailable {
        assert c.trace == bound + [StartWatchdog(false)] + Shutdown;
      } else {
        var evaluated := bound + (if timeout > 0 then [StartWatchdog(true)] else []) + [Evaluate] +
          (if timeout > 0 then [StopWatchdog] else []);
        assert c.trace == evaluated + Shutdown || c.trace == evaluated + [Convert] + Shutdown;
        assert StartWatchdog(true) in evaluated <==> timeout > 0;
        assert StartWatchdog(false) !in evaluated;
      }
    }
  }

  /** `JS_ShutDown` is called exactly on the paths that created a context. */
  lemma JsShutDownWithContext(script: string, params: Option<HostValue>, timeout: int, engine: Engine)
    ensures var c := Js(script, params, timeout, engine);
      ShutDownEngine in c.trace <==> NewContext(true) in c.trace
  {
    var c := Js(script, params, timeout, engine);
    if !ParamsAccepted(params) {
    } else if !engine.runtimeAvailable {
      assert c.trace == [NewRuntime(false)];
    } else if !engine.contextAvailable {
      assert c.trace == [NewRuntime(true), NewContext(false), DestroyRuntime];
    } else {
      var bound := [NewRuntime(true), NewContext(true)] + (if params.Some? then [BindParams] else []);
      assert NewContext(true) in bound && ShutDownEngine in Shutdown;
      if timeout > 0 && !engine.watchdogAvailable {
        assert c.trace == bound + [StartWatchdog(false)] + Shutdown;
      } else {
        var evaluated := bound + (if timeout > 0 then [StartWatchdog(true)] else []) + [Evaluate] +
          (if timeout > 0 then [StopWatchdog] else []);
        assert c.trace == evaluated + Shutdown || c.trace == evaluated + [Convert] + Shutdown;
      }
    }
  }

  /**
   * Whether the script runs, against which globals, and how the call ends once
   * it has: it fails exactly when evaluation fails or the reporter raised the
   * flag, leaving the last reported error pending; otherwise the value is
   * converted, and returned when the conversion succeeds.
   */
  lemma JsEvaluation(script: string, params: Option<HostValue>, timeout: int, engine: Engine)
    ensures var c := Js(script, params, timeout, engine);
      && (BindParams in c.trace <==> params.Some? && params.value.HDict? && engine.runtimeAvailable && engine.contextAvailable)
      && (Evaluate in c.trace <==>
            ParamsAccepted(params) && engine.runtimeAvailable && engine.contextAvailable &&
            (timeout <= 0 || engine.watchdogAvailable))
      && (Evaluate in c.trace ==> EvaluatedCall(c, EvaluationOf(script, params, timeout, engine)))
      && (c.result.Returned? || c.result.ScriptFailed? || c.result.ConversionFailed? ==> Evaluate in c.trace)
  {
    var c := Js(script, params, timeout, engine);
    if !ParamsAccepted(params) {
    } else if !engine.runtimeAvailable {
      assert c.trace == [NewRuntime(false)];
    } else if !engine.contextAvailable {
      assert c.trace == [NewRuntime(true), NewContext(false), DestroyRuntime];
    } else {
      var bound := [NewRuntime(true), NewContext(true)] + (if params.Some? then [BindParams] else []);
      assert BindParams in bound <==> params.Some?;
      assert Evaluate !in bound;
      if timeout > 0 && !engine.watchdogAvailable {
        assert c.trace == bound + [StartWatchdog(false)] + Shutdown;
      } else {
        var evaluated := bound + (if timeout > 0 then [StartWatchdog(true)] else []) + [Evaluate] +
          (if timeout > 0 then [StopWatchdog] else []);
        assert BindParams in evaluated <==> params.Some?;
        assert c.trace == evaluated + Shutdown || c.trace == evaluated + [Convert] + Shutdown;
        RaiseAllOutcome(NoError, EvaluationOf(script, params, timeout, engine).reports);
      }
    }
  }

  /**
   * Exactly once, for the call itself: the runtime, the context and the watchdog
   * are each released as often as they were made, at most once; the watchdog is
   * stopped before the value is converted or the context destroyed.
   */
  lemma JsReleasesExactlyOnce(script: string, params: Option<HostValue>, timeout: int, engine: Engine, j: nat)
    requires j < |Js(script, params, timeout, engine).trace|
    ensures var t := Js(script, params, timeout, engine).trace;
      && Count(t, NewRuntime(true)) == Count(t, DestroyRuntime) <= 1
      && Count(t, NewContext(true)) == Count(t, DestroyContext) <= 1
      && Count(t, StartWatchdog(true)) == Count(t, StopWatchdog) <= 1
      && (t[j].DestroyContext? || t[j].Convert? ==> Count(t[..j], StartWatchdog(true)) == Count(t[..j], StopWatchdog))
  {
    var t := Js(script, params, timeout, engine).trace;
    JsFollowsProtocol(script, params, timeout, engine);
    ReleasedExactlyOnce(t);
    TeardownOrder(t, j);
  }
}

=== FILE: report.dfy ===
/**
 * The engine's error reporter, `raise_python_exception`: it turns an engine
 * error report into a pending Python `ValueError` and raises the call's error
 * flag.
 */
module Report {
  import opened Wrappers

  /** The part of a `JSErrorReport` the reporter reads. */
  datatype ErrorReport = ErrorReport(filename: Option<string>, lineno: nat)

  datatype ErrorKind = ValueError | TypeError | SystemError

  /** A pending Python exception: its class and its message. */
  datatype PyError = PyError(kind: ErrorKind, message: string)

  /**
   * What the reporter writes to: the `error` int whose address is stored as
   * the context's private data, and Python's pending-exception slot.
   */
  datatype ErrorSlot = ErrorSlot(flag: bool, pending: Option<PyError>)

  const NoError: ErrorSlot := ErrorSlot(false, None)

  const UINT_MODULUS: nat := 0x1_0000_0000

  predicate IsDigit(c: char) { '0' <= c <= '9' }

  predicate AllDigits(s: string) { forall i :: 0 <= i < |s| ==> IsDigit(s[i]) }

  function DigitChar(d: nat): (c: char)
    requires d < 10
    ensures IsDigit(c)
  {
    (('0' as int) + d) as char
  }

  function DigitOf(c: char): (d: nat)
    requires IsDigit(c)
    ensures d < 10
  {
    (c as int - '0' as int) as nat
  }

  /** `%u`: decimal digits, most significant first, with no leading zero. */
  function Decimal(n: nat): (s: string)
    ensures |s| > 0 && AllDigits(s) && ':' !in s
    ensures |s| > 1 ==> s[0] != '0'
    decreases n
  {
    if n < 10 then [DigitChar(n)] else Decimal(n / 10) + [DigitChar(n % 10)]
  }

  /** The number a string of decimal digits spells. */
  function DigitsValue(s: string): nat
    requires AllDigits(s)
    decreases |s|
  {
    if |s| == 0 then 0 else DigitsValue(s[..|s| - 1]) * 10 + DigitOf(s[|s| - 1])
  }

  lemma {:induction false} DecimalValue(n: nat)
    ensures DigitsValue(Decimal(n)) == n
    decreases n
  {
    if n >= 10 {
      DecimalValue(n / 10);
      var s := Decimal(n);
      assert s[..|s| - 1] == Decimal(n / 10);
    }
  }

  /**
   * The message the reporter formats: `filename:lineno:message` when the report
   * names a file (the line number cast to `unsigned int` and printed with
   * `%u`), and the bare message otherwise.
   */
  function FormatMessage(message: string, report: ErrorReport): (r: string)
    ensures report.filename.None? ==> r == message
    ensures |r| >= |message| && r[|r| - |message|..] == message
    ensures report.filename.Some? ==>
      |r| > |report.filename.value| && r[..|report.filename.value| + 1] == report.filename.value + ":"
    ensures report.filename.Some? ==> |r| >= |report.filename.value| + |message| + 3
    ensures report.filename.Some? ==>
      var digits := r[|report.filename.value| + 1..|r| - |message| - 1];
      && r[|r| - |message| - 1] == ':'
      && |digits| > 0 && AllDigits(digits) && (|digits| > 1 ==> digits[0] != '0')
      && DigitsValue(digits) == report.lineno % UINT_MODULUS
  {
    match report.filename
    case None => message
    case Some(f) =>
      var n := report.lineno % UINT_MODULUS;
      DecimalValue(n);
      var r := f + ":" + Decimal(n) + ":" + message;
      assert r[|f| + 1..|r| - |message| - 1] == Decimal(n);
      r
  }

  /** `raise_python_exception`: replace the pending exception and set the flag. */
  function Raise(slot: ErrorSlot, message: string, report: ErrorReport): (r: ErrorSlot)
    ensures r.flag
    ensures r.pending.Some? && r.pending.value.kind == ValueError
  {
    ErrorSlot(true, Some(PyError(ValueError, FormatMessage(message, report))))
  }

  /** The slot after the engine has reported each of `reports`, in order. */
  function RaiseAll(slot: ErrorSlot, reports: seq<(string, ErrorReport)>): ErrorSlot
    decreases |reports|
  {
    if |reports| == 0 then slot
    else RaiseAll(Raise(slot, reports[0].0, reports[0].1), reports[1..])
  }

  /**
   * The flag is raised exactly when it already was or something was reported,
   * and the exception left pending is the one for the last report.
   */
  lemma {:induction false} RaiseAllOutcome(slot: ErrorSlot, reports: seq<(string, ErrorReport)>)
    ensures RaiseAll(slot, reports).flag <==> slot.flag || |reports| > 0
    ensures |reports| == 0 ==> RaiseAll(slot, reports) == slot
    ensures |reports| > 0 ==>
      RaiseAll(slot, reports).pending ==
      Some(PyError(ValueError, FormatMessage(reports[|reports| - 1].0, reports[|reports| - 1].1)))
    decreases |reports|
  {
    if |reports| > 0 {
      var next := Raise(slot, reports[0].0, reports[0].1);
      RaiseAllOutcome(next, reports[1..]);
      if |reports| > 1 {
        assert reports[1..][|reports[1..]| - 1] == reports[|reports| - 1];
      }
    }
  }

  // ---------------------------------------------------------------------------
  // Reading a formatted message back

  function IndexOf(s: string, c: char): (r: Option<nat>)
    ensures r.Some? ==> r.value < |s| && s[r.value] == c && c !in s[..r.value]
    ensures r.None? ==> c !in s
    decreases |s|
  {
    if |s| == 0 then None
    else if s[0] == c then Some(0)
    else match IndexOf(s[1..], c)
      case None => None
      case Some(i) => Some(i + 1)
  }

  lemma {:induction false} IndexOfJoin(a: string, c: char, b: string)
    requires c !in a
    ensures IndexOf(a + [c] + b, c) == Some(|a|)
    decreases |a|
  {
    if |a| > 0 {
      assert (a + [c] + b)[1..] == a[1..] + [c] + b;
      IndexOfJoin(a[1..], c, b);
    }
  }

  /**
   * Splits `filename:lineno:message` at its first two colons, when the part in
   * between is a decimal number.
   */
  function ParseMessage(text: string): Option<(string, nat, string)> {
    match IndexOf(text, ':')
    case None => None
    case Some(i) =>
      var rest := text[i + 1..];
      match IndexOf(rest, ':')
      case None => None
      case Some(j) =>
        if j > 0 && AllDigits(rest[..j]) then Some((text[..i], DigitsValue(rest[..j]), rest[j + 1..]))
        else None
  }

  /**
   * Formatting loses nothing: without a filename the message is passed through
   * untouched, and with a filename free of colons the file name, the line number
   * (as an unsigned int) and the message can all be read back.
   */
  lemma FormatMessageReadsBack(message: string, report: ErrorReport)
    ensures report.filename.None? ==> FormatMessage(message, report) == message
    ensures report.filename.Some? && ':' !in report.filename.value ==>
      ParseMessage(FormatMessage(message, report)) ==
        Some((report.filename.value, report.lineno % UINT_MODULUS, message))
  {
    if report.filename.Some? && ':' !in report.filename.value {
      var f := report.filename.value;
      var d := Decimal(report.lineno % UINT_MODULUS);
      var text := FormatMessage(message, report);
      assert text == f + [':'] + (d + ":" + message);
      IndexOfJoin(f, ':', d + ":" + message);
      var rest := text[|f| + 1..];
      assert rest == d + [':'] + message;
      IndexOfJoin(d, ':', message);
      assert rest[..|d|] == d;
      assert rest[|d| + 1..] == message;
      assert text[..|f|] == f;
      DecimalValue(report.lineno % UINT_MODULUS);
    }
  }
}

=== FILE: round_trip.dfy ===
/**
 * What a Python value looks like after a trip into the engine and back: the
 * two marshalers composed.
 */
module RoundTrip {
  import opened Wrappers
  import opened Values
  import Assoc
  import ToScript
  import ToHost

  /**
   * The value Python receives back for `h`, stated on the host side alone:
   * strings come back unicode and cut at their first NUL, bools and ints come back as longs (narrowed to
   * 32 bits), tuples come back as lists, dicts keep only their string keys (last
   * entry wins), datetimes lose their microseconds and keep the low bits of each field (a
   * time zone is not modelled), and anything the marshaler
   * does not recognise comes back as None.
   */
  function Normalize(h: HostValue): HostValue
    decreases h, 1
  {
    match h
    case HNone => HNone
    case HOther => HNone
    case HBool(b) => HLong(if b then 1 else 0)
    case HInt(i) => HLong(ToScript.EngineInt(i))
    case HLong(i) => HLong(ToScript.EngineInt(i))
    case HFloat(d) => HFloat(d)
    case HStr(t) => HUnicode(UpToNul(t))
    case HUnicode(t) => HUnicode(UpToNul(t))
    case HList(_) => HList(NormalizedItems(h))
    case HTuple(_) => HList(NormalizedItems(h))
    case HDict(_) => HDict(Assoc.PutAll([], NormalizedBindings(h)))
    case HDateTime(y, mo, d, hh, mi, s, _) =>
      HDateTime(LowBits(y, YEAR_MODULUS), LowBits(mo, FIELD_MODULUS), LowBits(d, FIELD_MODULUS),
                LowBits(hh, FIELD_MODULUS), LowBits(mi, FIELD_MODULUS), LowBits(s, FIELD_MODULUS), 0)
  }

  function NormalizedItems(h: HostValue): seq<HostValue>
    requires h.HList? || h.HTuple?
    decreases h, 0
  {
    seq(|h.items|, i requires 0 <= i < |h.items| => Normalize(h.items[i]))
  }

  function NormalizedBindings(h: HostValue): seq<Option<(HostValue, HostValue)>>
    requires h.HDict?
    decreases h, 0
  {
    var es := h.entries;
    seq(|es|, i requires 0 <= i < |es| =>
      match ToScript.PropertyName(es[i].0)
      case Some(n) => Some((HUnicode(n), Normalize(es[i].1)))
      case None => None)
  }

  // ---------------------------------------------------------------------------
  // Objects made by the marshaler, seen from the host side

  /** A property table every entry of which is a named, readable, convertible property. */
  predicate Clean(ps: seq<Property>) {
    forall j :: 0 <= j < |ps| ==> CleanProperty(ps[j])
  }

  predicate CleanProperty(p: Property) {
    && p.0.Some? && p.0.value.SString? && '\0' !in p.0.value.text
    && p.1.Some? && ToHost.ToHost(p.1.value).Some?
  }

  /** The dict entry a clean property turns into. */
  function EntryOf(p: Property): (HostValue, HostValue)
    requires CleanProperty(p)
  {
    (HUnicode(p.0.value.text), ToHost.ToHost(p.1.value).value)
  }

  function Image(ps: seq<Property>): (r: seq<(HostValue, HostValue)>)
    requires Clean(ps)
    ensures |r| == |ps|
  {
    seq(|ps|, j requires 0 <= j < |ps| => EntryOf(ps[j]))
  }

  predicate CleanUpdates(us: seq<Option<Property>>) {
    forall i :: 0 <= i < |us| && us[i].Some? ==> CleanProperty(us[i].value)
  }

  function ImageUpdates(us: seq<Option<Property>>): (r: seq<Option<(HostValue, HostValue)>>)
    requires CleanUpdates(us)
    ensures |r| == |us|
  {
    seq(|us|, i requires 0 <= i < |us| => if us[i].Some? then Some(EntryOf(us[i].value)) else None)
  }

  /** Setting a clean property keeps a table clean. */
  lemma CleanPut(ps: seq<Property>, p: Property)
    requires Clean(ps) && CleanProperty(p)
    ensures Clean(Assoc.Put(ps, p.0, p.1))
  {
    var r := Assoc.Put(ps, p.0, p.1);
    Assoc.PutEntries(ps, p.0, p.1);
    forall j | 0 <= j < |r| ensures CleanProperty(r[j]) {
      assert r[j] in r;
      if r[j] != (p.0, p.1) {
        var i :| 0 <= i < |ps| && ps[i] == r[j];
      }
    }
  }

  lemma ImageCons(p: Property, rest: seq<Property>)
    requires CleanProperty(p) && Clean(rest)
    ensures Clean([p] + rest) && Image([p] + rest) == [EntryOf(p)] + Image(rest)
  {
    assert forall j :: 1 <= j < |rest| + 1 ==> ([p] + rest)[j] == rest[j - 1];
  }

  /** Setting a named property, then reading the object back, is setting the dict key. */
  lemma {:induction false} ImagePut(ps: seq<Property>, p: Property)
    requires Clean(ps) && CleanProperty(p)
    ensures Clean(Assoc.Put(ps, p.0, p.1))
    ensures Image(Assoc.Put(ps, p.0, p.1)) == Assoc.Put(Image(ps), EntryOf(p).0, EntryOf(p).1)
    decreases |ps|
  {
    CleanPut(ps, p);
    var (k, x) := EntryOf(p);
    if |ps| > 0 {
      var img := Image(ps);
      assert img[0] == EntryOf(ps[0]);
      assert img[1..] == Image(ps[1..]);
      if ps[0].0 != p.0 {
        assert img[0].0 != k;
        ImagePut(ps[1..], p);
        var rest := Assoc.Put(ps[1..], p.0, p.1);
        assert Assoc.Put(ps, p.0, p.1) == [ps[0]] + rest;
        assert Assoc.Put(img, k, x) == [img[0]] + Assoc.Put(img[1..], k, x);
        ImageCons(ps[0], rest);
      } else {
        assert img[0].0 == k;
        assert Assoc.Put(ps, p.0, p.1) == [(p.0, p.1)] + ps[1..];
        assert Assoc.Put(img, k, x) == [(k, x)] + img[1..];
        ImageCons(p, ps[1..]);
      }
    } else {
      assert Assoc.Put(ps, p.0, p.1) == [(p.0, p.1)];
    }
  }

  lemma {:induction false} ImagePutAll(ps: seq<Property>, us: seq<Option<Property>>)
    requires Clean(ps) && CleanUpdates(us)
    ensures Clean(Assoc.PutAll(ps, us))
    ensures Image(Assoc.PutAll(ps, us)) == Assoc.PutAll(Image(ps), ImageUpdates(us))
    decreases |us|
  {
    if |us| > 0 {
      assert ImageUpdates(us)[1..] == ImageUpdates(us[1..]);
      match us[0]
      case None =>
        ImagePutAll(ps, us[1..]);
      case Some(p) =>
        ImagePut(ps, p);
        ImagePutAll(Assoc.Put(ps, p.0, p.1), us[1..]);
    }
  }

  function Somes<T>(t: seq<T>): (r: seq<Option<T>>)
    ensures |r| == |t|
  {
    seq(|t|, i requires 0 <= i < |t| => Some(t[i]))
  }

  /** Storing the entries of a table with unique keys, in order, rebuilds the table. */
  lemma {:induction false} PutAllFresh(acc: seq<(HostValue, HostValue)>, t: seq<(HostValue, HostValue)>)
    requires Assoc.UniqueKeys(acc + t)
    ensures Assoc.PutAll(acc, Somes(t)) == acc + t
    decreases |t|
  {
    if |t| > 0 {
      assert !Assoc.HasKey(acc, t[0].0) by {
        forall j | 0 <= j < |acc| ensures acc[j].0 != t[0].0 {
          assert (acc + t)[j] == acc[j] && (acc + t)[|acc|] == t[0];
        }
      }
      assert Somes(t)[1..] == Somes(t[1..]);
      assert acc + t == (acc + [t[0]]) + t[1..];
      PutAllFresh(acc + [t[0]], t[1..]);
    }
  }

  lemma CleanPropertyOutcome(p: Property)
    requires CleanProperty(p)
    ensures ToHost.PropertyOutcome(Some(ToHost.ToHost(p.0.value)), Some(ToHost.ToHost(p.1.value))) == ToHost.Keep(EntryOf(p))
  {
    assert ToHost.ToHost(p.0.value) == Some(HUnicode(p.0.value.text));
  }

  /** Distinct property names give distinct dict keys. */
  lemma ImageUniqueKeys(ps: seq<Property>)
    requires Clean(ps) && Assoc.UniqueKeys(ps)
    ensures Assoc.UniqueKeys(Image(ps))
  {
    forall a, b | 0 <= a < b < |ps| ensures Image(ps)[a].0 != Image(ps)[b].0 {
      assert ps[a].0 != ps[b].0;
    }
  }

  /** The property loop over a clean object with unique names builds exactly its image. */
  lemma CollectClean(ps: seq<Property>)
    requires Clean(ps) && Assoc.UniqueKeys(ps)
    ensures ToHost.Collect([], ToHost.PropertyOutcomes(SObject(true, ps))) == Some(Image(ps))
  {
    var os := ToHost.PropertyOutcomes(SObject(true, ps));
    var img := Image(ps);
    forall j | 0 <= j < |ps| ensures os[j] == ToHost.Keep(img[j]) {
      CleanPropertyOutcome(ps[j]);
    }
    assert ToHost.Updates(os) == Somes(img);
    ImageUniqueKeys(ps);
    assert [] + img == img;
    PutAllFresh([], img);
    assert forall i :: 0 <= i < |os| ==> !os[i].Fail?;
    var c := ToHost.Collect([], os);
    assert c.Some? && c.value == Assoc.PutAll([], Somes(img));
  }

  /** A clean object with unique property names converts to exactly its image. */
  lemma CleanObjectToHost(ps: seq<Property>)
    requires Clean(ps) && Assoc.UniqueKeys(ps)
    ensures ToHost.ToHost(SObject(true, ps)) == Some(HDict(Image(ps)))
  {
    CollectClean(ps);
    ToHost.IterableObject(ps);
  }

  /**
   * Round trip: converting any Python value into the engine and
   * straight back never fails, and gives `Normalize` of it.
   */
  lemma {:induction false} RoundTrip(h: HostValue)
    ensures ToHost.ToHost(ToScript.ToScript(h)) == Some(Normalize(h))
    decreases h
  {
    match h
    case HList(xs) =>
      forall i | 0 <= i < |xs| { RoundTrip(xs[i]); }
      ItemsRoundTrip(h);
    case HTuple(xs) =>
      forall i | 0 <= i < |xs| { RoundTrip(xs[i]); }
      ItemsRoundTrip(h);
    case HDict(es) =>
      forall i | 0 <= i < |es| { RoundTrip(es[i].1); }
      var us := ToScript.Bindings(h);
      var ps := ToScript.Populate([], h);
      assert CleanUpdates(us);
      assert ImageUpdates(us) == NormalizedBindings(h);
      ImagePutAll([], us);
      Assoc.PutAllUniqueKeys([], us);
      CleanObjectToHost(ps);
    case _ =>
  }

  lemma ItemsRoundTrip(h: HostValue)
    requires h.HList? || h.HTuple?
    requires forall i :: 0 <= i < |h.items| ==>
      ToHost.ToHost(ToScript.ToScript(h.items[i])) == Some(Normalize(h.items[i]))
    ensures ToHost.ToHost(ToScript.ToScript(h)) == Some(HList(NormalizedItems(h)))
  {
    var v := ToScript.ToScript(h);
    assert v.elements == ToScript.Elements(h);
    var os := ToHost.ElementOutcomes(v);
    var xs := NormalizedItems(h);
    forall i | 0 <= i < |os| ensures os[i] == ToHost.Keep(xs[i]) {
      assert v.elements[i] == Some(ToScript.ToScript(h.items[i]));
    }
    CompactAllKept(os, xs);
  }

  lemma {:induction false} CompactAllKept<T>(os: seq<ToHost.Outcome<T>>, xs: seq<T>)
    requires |os| == |xs| && forall i :: 0 <= i < |os| ==> os[i] == ToHost.Keep(xs[i])
    ensures ToHost.Compact(os) == Some(xs)
  {
    if |os| > 0 {
      var n := |os| - 1;
      CompactAllKept(os[..n], xs[..n]);
      assert xs == xs[..n] + [xs[n]];
    }
  }

  // ---------------------------------------------------------------------------
  // Consequences

  /** Whatever comes back from a round trip is in the script side's normal form. */
  lemma NormalizeIsCanonical(h: HostValue)
    ensures Canonical(Normalize(h))
  {
    RoundTrip(h);
    ToHost.ToHostCanonical(ToScript.ToScript(h));
  }

  /**
   * Primitive round trips: strings without NUL come back as unicode with the same text,
   * doubles with the same bits, integers that fit 32 bits as longs of the same
   * value, and bools as the longs 0 and 1 rather than as bools.
   */
  lemma PrimitiveRoundTrip(t: string, d: Double, i: int, b: bool)
    ensures '\0' !in t ==> ToHost.ToHost(ToScript.ToScript(HStr(t))) == Some(HUnicode(t))
    ensures '\0' !in t ==> ToHost.ToHost(ToScript.ToScript(HUnicode(t))) == Some(HUnicode(t))
    ensures ToHost.ToHost(ToScript.ToScript(HFloat(d))) == Some(HFloat(d))
    ensures IsInt32(i) ==> ToHost.ToHost(ToScript.ToScript(HInt(i))) == Some(HLong(i))
    ensures IsInt32(i) ==> ToHost.ToHost(ToScript.ToScript(HLong(i))) == Some(HLong(i))
    ensures ToHost.ToHost(ToScript.ToScript(HBool(b))) == Some(HLong(if b then 1 else 0))
    ensures ToHost.ToHost(ToScript.ToScript(HNone)) == Some(HNone)
    ensures ToHost.ToHost(ToScript.ToScript(HOther)) == Some(HNone)
  {
  }

  /**
   * C strings end at the first NUL: the engine holds the whole text of a string
   * holding one, and it comes back cut short.
   */
  lemma NulEndsCStrings()
    ensures ToHost.ToHost(ToScript.ToScript(HStr("a\0b"))) == Some(HUnicode("a"))
    ensures ToScript.ToScript(HStr("a\0b")) == SString("a\0b")
  {
    assert UpToNul("a\0b") == "a" by {
      assert "a\0b"[1..] == "\0b";
    }
  }

  /**
   * Two dict keys that agree up to a NUL name the same property, the later
   * entry winning.
   */
  lemma NulMergesPropertyNames()
    ensures ToScript.ToScript(HDict([(HStr("a\0b"), HLong(1)), (HUnicode("a"), HLong(2))])).properties ==
      [(Some(SString("a")), Some(SInt(2)))]
  {
    NulEndsName();
    var h := HDict([(HStr("a\0b"), HLong(1)), (HUnicode("a"), HLong(2))]);
    var us := ToScript.Bindings(h);
    var a: Option<ScriptValue> := Some(SString("a"));
    var once := Assoc.Put([], a, Some(SInt(1)));
    assert once == [(a, Some(SInt(1)))];
    assert Assoc.Put(once, a, Some(SInt(2))) == [(a, Some(SInt(2)))];
    assert us[1..][1..] == [];
    assert Assoc.PutAll([], us) == Assoc.PutAll(once, us[1..]);
  }

  /** Both keys of the dict above bind the property `"a"`. */
  lemma NulEndsName()
    ensures UpToNul("a\0b") == "a"
    ensures ToScript.Bindings(HDict([(HStr("a\0b"), HLong(1)), (HUnicode("a"), HLong(2))])) ==
      [Some((Some(SString("a")), Some(SInt(1)))), Some((Some(SString("a")), Some(SInt(2))))]
  {
    assert "a\0b"[1..] == "\0b";
  }

  /**
   * Integers are narrowed, not widened to doubles: 2^31 comes back as -2^31, and
   * a long beyond the C long range comes back as -1.
   */
  lemma IntegersAreNarrowed()
    ensures ToHost.ToHost(ToScript.ToScript(HLong(0x8000_0000))) == Some(HLong(-0x8000_0000))
    ensures ToHost.ToHost(ToScript.ToScript(HLong(0x1_0000_0000))) == Some(HLong(0))
    ensures ToHost.ToHost(ToScript.ToScript(HLong(0x8000_0000_0000_0000))) == Some(HLong(-1))
  {
  }

  /**
   * A datetime comes back with zero microseconds and every field stored again
   * in its C width; the engine holds the month zero-based. Every datetime Python
   * can hold has its fields within those widths and so comes back with the same
   * year, month, day, hour, minute and second.
   */
  lemma DateTimeRoundTrip(y: int, mo: int, d: int, hh: int, mi: int, s: int, us: int)
    ensures ToScript.ToScript(HDateTime(y, mo, d, hh, mi, s, us)).accessors.month == Some(mo - 1)
    ensures var back := ToHost.ToHost(ToScript.ToScript(HDateTime(y, mo, d, hh, mi, s, us)));
      back.Some? && StoresFields(back.value, y, mo, d, hh, mi, s)
    ensures 0 <= y < YEAR_MODULUS && 0 <= mo < FIELD_MODULUS && 0 <= d < FIELD_MODULUS &&
            0 <= hh < FIELD_MODULUS && 0 <= mi < FIELD_MODULUS && 0 <= s < FIELD_MODULUS ==>
      ToHost.ToHost(ToScript.ToScript(HDateTime(y, mo, d, hh, mi, s, us))) == Some(HDateTime(y, mo, d, hh, mi, s, 0))
  {
  }

  /** The month boundaries: January is held as 0 and December as 11, and both come back. */
  lemma MonthBoundaries()
    ensures ToScript.ToScript(HDateTime(2024, 1, 31, 23, 59, 59, 999999)).accessors.month == Some(0)
    ensures ToHost.ToHost(ToScript.ToScript(HDateTime(2024, 1, 31, 23, 59, 59, 999999))) == Some(HDateTime(2024, 1, 31, 23, 59, 59, 0))
    ensures ToScript.ToScript(HDateTime(1999, 12, 31, 0, 0, 0, 1)).accessors.month == Some(11)
    ensures ToHost.ToHost(ToScript.ToScript(HDateTime(1999, 12, 31, 0, 0, 0, 1))) == Some(HDateTime(1999, 12, 31, 0, 0, 0, 0))
  {
    DateTimeRoundTrip(2024, 1, 31, 23, 59, 59, 999999);
    DateTimeRoundTrip(1999, 12, 31, 0, 0, 0, 1);
  }

  /**
   * The fields are not range-checked: once all six accessor calls succeed the
   * date converts, whatever they answered, each field keeping its low bits. A
   * date in the year 10000, which Python's own `datetime` constructor would
   * refuse, comes back as one; the year -1 comes back as 65535, the year 70000
   * as 4464, and a month answered as 255 comes back as month 0.
   */
  lemma FieldsNotRangeChecked(calls: DateReads)
    requires ToHost.AllRead(calls)
    ensures var back := ToHost.ToHost(SDate(calls));
      back.Some? &&
      StoresFields(back.value, calls.year.value, calls.month.value + 1, calls.day.value,
                   calls.hour.value, calls.minute.value, calls.second.value)
    ensures ToHost.ToHost(SDate(DateReads(Some(10000), Some(0), Some(1), Some(0), Some(0), Some(0)))) ==
      Some(HDateTime(10000, 1, 1, 0, 0, 0, 0))
    ensures ToHost.ToHost(SDate(DateReads(Some(-1), Some(0), Some(1), Some(0), Some(0), Some(0)))) ==
      Some(HDateTime(65535, 1, 1, 0, 0, 0, 0))
    ensures ToHost.ToHost(SDate(DateReads(Some(70000), Some(0), Some(1), Some(0), Some(0), Some(0)))) ==
      Some(HDateTime(4464, 1, 1, 0, 0, 0, 0))
    ensures ToHost.ToHost(SDate(DateReads(Some(2024), Some(255), Some(1), Some(0), Some(0), Some(0)))) ==
      Some(HDateTime(2024, 0, 1, 0, 0, 0, 0))
  {
  }

  /** Any failed accessor call fails the whole datetime: there is no partial result. */
  lemma DateAccessorFailure(calls: DateReads)
    requires !ToHost.AllRead(calls)
    ensures ToHost.ToHost(SDate(calls)) == None
  {
  }

  /** A tuple comes back as a list holding the same items, each round-tripped. */
  lemma TupleComesBackAsList(xs: seq<HostValue>)
    ensures ToHost.ToHost(ToScript.ToScript(HTuple(xs))) == ToHost.ToHost(ToScript.ToScript(HList(xs)))
    ensures var back := ToHost.ToHost(ToScript.ToScript(HTuple(xs)));
      back.Some? && back.value.HList? && |back.value.items| == |xs| &&
      forall i :: 0 <= i < |xs| ==> Some(back.value.items[i]) == ToHost.ToHost(ToScript.ToScript(xs[i]))
  {
    RoundTrip(HTuple(xs));
    forall i | 0 <= i < |xs| { RoundTrip(xs[i]); }
  }
}

=== FILE: to_host.dfy ===
/**
 * Script to host: `to_python_object`, `to_python_list`, `to_python_dict` and
 * `to_python_datetime`.
 *
 * A conversion that returns `NULL` in the source is `None` here. Where a nested
 * conversion fails, the model fails the whole conversion (see `AsWritten` for
 * what the source does instead).
 */
module ToHost {
  import opened Wrappers
  import opened Values
  import Assoc

  /** What one element or property contributes while a container is converted. */
  datatype Outcome<+T> =
    | Skip          // the engine read failed, or the key converted to None: leave it out
    | Fail          // a nested conversion returned NULL
    | Keep(value: T)

  /** Shape of the conversion of each kind of script value. */
  predicate Corresponds(v: ScriptValue, h: HostValue) {
    match v
    case SUndefined => h == HNone
    case SNull => h == HNone
    case SBool(b) => h == HBool(b)
    case SInt(i) => h == HLong(i)
    case SDouble(d) => h == HFloat(d)
    case SString(t) => h == HUnicode(UpToNul(t))
    case SDate(_) => h.HDateTime?
    case SArray(lengthRead, _) => h.HList? && (!lengthRead ==> h.items == [])
    case SObject(iterable, _) => if iterable then h.HDict? else h == HNone
  }

  predicate IsPrimitive(v: ScriptValue) {
    !(v.SDate? || v.SArray? || v.SObject?)
  }

  /**
   * `to_python_object`: primitives by their tag; objects are tried as a date,
   * then as an array, and anything else is read as a property bag.
   */
  function ToHost(v: ScriptValue): (r: Option<HostValue>)
    decreases v, 1
    ensures IsPrimitive(v) ==> r.Some?
    ensures r.Some? ==> Corresponds(v, r.value)
    ensures v.SDate? ==> (r.Some? <==> AllRead(v.accessors))
    ensures v.SArray? && !v.lengthRead ==> r == Some(HList([]))
    ensures v.SObject? && !v.iterable ==> r == Some(HNone)
  {
    match v
    // `JS_EncodeString` yields a C string, which `PyUnicode_FromString` reads up to its first NUL.
    case SString(t) => Some(HUnicode(UpToNul(t)))
    case SBool(b) => Some(HBool(b))
    case SInt(i) => Some(HLong(i))
    case SDouble(d) => Some(HFloat(d))
    case SUndefined => Some(HNone)
    case SNull => Some(HNone)
    case SDate(calls) => ToDateTime(calls)
    case SArray(lengthRead, _) =>
      if !lengthRead then Some(HList([]))
      else (match Compact(ElementOutcomes(v)) case Some(xs) => Some(HList(xs)) case None => None)
    case SObject(iterable, _) =>
      if !iterable then Some(HNone)
      else (match Collect([], PropertyOutcomes(v)) case Some(d) => Some(HDict(d)) case None => None)
  }

  /** The element loop of `to_python_list`: each index read, converted if the read succeeded. */
  function ElementOutcomes(v: ScriptValue): (r: seq<Outcome<HostValue>>)
    requires v.SArray?
    decreases v, 0
    ensures |r| == |v.elements|
  {
    var xs := v.elements;
    seq(|xs|, i requires 0 <= i < |xs| =>
      ElementOutcome(if xs[i].Some? then Some(ToHost(xs[i].value)) else None))
  }

  /**
   * One element: left out when `JS_GetElement` fails, failing when its conversion
   * fails, and otherwise appended as converted.
   */
  function ElementOutcome(read: Option<Option<HostValue>>): (r: Outcome<HostValue>)
    ensures r.Skip? <==> read.None?
    ensures r.Fail? <==> read == Some(None)
    ensures r.Keep? ==> read == Some(Some(r.value))
  {
    match read
    case None => Skip
    case Some(None) => Fail
    case Some(Some(h)) => Keep(h)
  }

  /** The property loop of `to_python_dict`: each id and value converted where it could be read. */
  function PropertyOutcomes(v: ScriptValue): (r: seq<Outcome<(HostValue, HostValue)>>)
    requires v.SObject?
    decreases v, 0
    ensures |r| == |v.properties|
  {
    var ps := v.properties;
    seq(|ps|, i requires 0 <= i < |ps| =>
      PropertyOutcome(
        if ps[i].0.Some? then Some(ToHost(ps[i].0.value)) else None,
        if ps[i].1.Some? then Some(ToHost(ps[i].1.value)) else None))
  }

  /**
   * One property: skipped when its id cannot be turned into a value, when the key
   * converts to None, or when the value cannot be read; otherwise it fails when
   * the key or the value failed to convert. A key whose conversion returned NULL
   * is not `Py_None`, so the value is still read, and an unreadable value skips
   * the property before the failed key is ever used.
   */
  function PropertyOutcome(key: Option<Option<HostValue>>, value: Option<Option<HostValue>>): (r: Outcome<(HostValue, HostValue)>)
    ensures r.Skip? <==> key.None? || key == Some(Some(HNone)) || value.None?
    ensures r.Fail? ==> key.Some? && value.Some? && (key.value.None? || value.value.None?)
    ensures r.Keep? ==> r.value.0 != HNone && key == Some(Some(r.value.0)) && value == Some(Some(r.value.1))
  {
    if key.None? || key == Some(Some(HNone)) || value.None? then Skip
    else if key.value.None? || value.value.None? then Fail
    else Keep((key.value.value, value.value.value))
  }

  /** Append the kept items in order; the list fails if any item's conversion failed. */
  function Compact<T>(os: seq<Outcome<T>>): (r: Option<seq<T>>)
    ensures r.None? <==> exists i :: 0 <= i < |os| && os[i].Fail?
    ensures r.Some? ==> |r.value| <= |os|
  {
    if |os| == 0 then Some([])
    else
      var last := os[|os| - 1];
      assert forall i :: 0 <= i < |os| - 1 ==> os[..|os| - 1][i] == os[i];
      match Compact(os[..|os| - 1])
      case None => None
      case Some(xs) =>
        match last
        case Fail => None
        case Skip => Some(xs)
        case Keep(x) => Some(xs + [x])
  }

  /**
   * Store each kept pair into the dict with `PyDict_SetItem`, later pairs
   * overwriting earlier ones with an equal key; fails if any conversion failed.
   */
  function Collect<K(==, !new), V>(acc: seq<(K, V)>, os: seq<Outcome<(K, V)>>): (r: Option<seq<(K, V)>>)
    ensures r.None? <==> exists i :: 0 <= i < |os| && os[i].Fail?
    ensures r.Some? ==> r.value == Assoc.PutAll(acc, Updates(os))
    decreases |os|
  {
    if |os| == 0 then Some(acc)
    else
      assert Updates(os)[1..] == Updates(os[1..]);
      match os[0]
      case Fail => None
      case Skip => Collect(acc, os[1..])
      case Keep(kv) => Collect(Assoc.Put(acc, kv.0, kv.1), os[1..])
  }

  /** The dict assignments a run of outcomes asks for. */
  function Updates<T>(os: seq<Outcome<T>>): (r: seq<Option<T>>)
    ensures |r| == |os|
    ensures forall i :: 0 <= i < |os| ==> r[i] == (if os[i].Keep? then Some(os[i].value) else None)
  {
    seq(|os|, i requires 0 <= i < |os| => if os[i].Keep? then Some(os[i].value) else None)
  }

  predicate AllRead(calls: DateReads) {
    && calls.year.Some? && calls.month.Some? && calls.day.Some?
    && calls.hour.Some? && calls.minute.Some? && calls.second.Some?
  }

  /**
   * `to_python_datetime`: six accessor calls, the first failure returning NULL;
   * then `PyDateTime_FromDateAndTime` with the month shifted back to one-based and
   * zero microseconds. That C-level constructor does no range checking: it
   * stores the low 16 bits of the year and the low 8 bits of every other field.
   */
  function ToDateTime(calls: DateReads): (r: Option<HostValue>)
    ensures r.Some? <==> AllRead(calls)
    ensures r.Some? ==>
      StoresFields(r.value, calls.year.value, calls.month.value + 1, calls.day.value,
                   calls.hour.value, calls.minute.value, calls.second.value)
  {
    if !AllRead(calls) then None
    else
      Some(HDateTime(LowBits(calls.year.value, YEAR_MODULUS), LowBits(calls.month.value + 1, FIELD_MODULUS),
                     LowBits(calls.day.value, FIELD_MODULUS), LowBits(calls.hour.value, FIELD_MODULUS),
                     LowBits(calls.minute.value, FIELD_MODULUS), LowBits(calls.second.value, FIELD_MODULUS), 0))
  }

  // ---------------------------------------------------------------------------
  // Array compaction

  /** The positions of the kept outcomes, in increasing order. */
  function KeptIndices<T>(os: seq<Outcome<T>>): (r: seq<nat>)
    ensures |r| <= |os|
    ensures forall k :: 0 <= k < |r| ==> r[k] < |os| && os[r[k]].Keep?
    ensures forall k, l :: 0 <= k < l < |r| ==> r[k] < r[l]
    ensures forall i :: 0 <= i < |os| && os[i].Keep? ==> i in r
  {
    if |os| == 0 then []
    else
      var n := |os| - 1;
      var front := os[..n];
      assert forall i :: 0 <= i < n ==> front[i] == os[i];
      var rest := KeptIndices(front);
      if os[n].Keep? then rest + [n] else rest
  }

  lemma {:induction false} CompactKeepsReadOrder<T>(os: seq<Outcome<T>>)
    requires Compact(os).Some?
    ensures |Compact(os).value| == |KeptIndices(os)|
    ensures forall k :: 0 <= k < |KeptIndices(os)| ==> os[KeptIndices(os)[k]] == Keep(Compact(os).value[k])
  {
    if |os| > 0 {
      var n := |os| - 1;
      var front := os[..n];
      assert forall i :: 0 <= i < n ==> front[i] == os[i];
      CompactKeepsReadOrder(front);
    }
  }

  /**
   * The list an array converts to holds, in increasing index order, the
   * conversion of exactly those elements whose read succeeded: a failed read is
   * left out rather than replaced by None, so the list is never longer than the
   * reported length.
   */
  lemma ArrayCompaction(v: ScriptValue)
    requires v.SArray? && v.lengthRead && ToHost(v).Some?
    ensures var xs := ToHost(v).value.items; var idx := KeptIndices(ElementOutcomes(v));
      && |xs| == |idx| <= |v.elements|
      && (forall k :: 0 <= k < |idx| ==>
            idx[k] < |v.elements| && v.elements[idx[k]].Some? && ToHost(v.elements[idx[k]].value) == Some(xs[k]))
      && (forall k, l :: 0 <= k < l < |idx| ==> idx[k] < idx[l])
      && (forall i :: 0 <= i < |v.elements| && v.elements[i].Some? ==> i in idx)
  {
    var os := ElementOutcomes(v);
    CompactKeepsReadOrder(os);
    forall i | 0 <= i < |v.elements| && v.elements[i].Some?
      ensures os[i].Keep?
    {
      assert !os[i].Fail?;
    }
  }

  // ---------------------------------------------------------------------------
  // Object to dict

  /** The last value a property stores under key `k`, read independently of `Collect`. */
  function LastValueFor(ps: seq<Property>, k: HostValue): Option<HostValue>
    decreases |ps|
  {
    if |ps| == 0 then None
    else match LastValueFor(ps[1..], k)
      case Some(x) => Some(x)
      case None =>
        if k != HNone && ps[0].0.Some? && ToHost(ps[0].0.value) == Some(k)
           && ps[0].1.Some? && ToHost(ps[0].1.value).Some?
        then ToHost(ps[0].1.value)
        else None
  }

  lemma {:induction false} LastUpdateOfProperties(ps: seq<Property>, k: HostValue)
    requires forall i :: 0 <= i < |ps| ==> !PropertyOutcomes(SObject(true, ps))[i].Fail?
    ensures Assoc.LastUpdate(Updates(PropertyOutcomes(SObject(true, ps))), k) == LastValueFor(ps, k)
    decreases |ps|
  {
    if |ps| > 0 {
      var os := PropertyOutcomes(SObject(true, ps));
      assert PropertyOutcomes(SObject(true, ps[1..])) == os[1..];
      assert Updates(os)[1..] == Updates(os[1..]);
      LastUpdateOfProperties(ps[1..], k);
      FirstPropertyUpdate(ps, k);
    }
  }

  /** The update the first property makes, in the terms `LastValueFor` uses. */
  lemma FirstPropertyUpdate(ps: seq<Property>, k: HostValue)
    requires |ps| > 0 && !PropertyOutcomes(SObject(true, ps))[0].Fail?
    ensures var u := Updates(PropertyOutcomes(SObject(true, ps)))[0];
      (u.Some? && u.value.0 == k) ==
        (k != HNone && ps[0].0.Some? && ToHost(ps[0].0.value) == Some(k) && ps[0].1.Some? && ToHost(ps[0].1.value).Some?)
    ensures var u := Updates(PropertyOutcomes(SObject(true, ps)))[0];
      u.Some? && u.value.0 == k ==> ToHost(ps[0].1.value) == Some(u.value.1)
  {
  }

  /**
   * The dict an object converts to: a key is present exactly when some property
   * has an id converting to it (other than None) and a readable value, and it
   * holds the converted value of the last such property.
   */
  lemma ObjectToDict(ps: seq<Property>, k: HostValue)
    requires ToHost(SObject(true, ps)).Some?
    ensures Assoc.Get(ToHost(SObject(true, ps)).value.entries, k) == LastValueFor(ps, k)
  {
    var os := PropertyOutcomes(SObject(true, ps));
    var d := Collect([], os);
    assert ToHost(SObject(true, ps)) == Some(HDict(d.value));
    assert forall i :: 0 <= i < |ps| ==> !os[i].Fail?;
    Assoc.PutAllGet([], Updates(os), k);
    LastUpdateOfProperties(ps, k);
  }

  /** A skipped outcome can be removed without changing what `Collect` builds. */
  lemma {:induction false} CollectIgnoresSkipped<K(!new), V>(acc: seq<(K, V)>, os: seq<Outcome<(K, V)>>, i: nat)
    requires i < |os| && os[i].Skip?
    ensures Collect(acc, os[..i] + os[i + 1..]) == Collect(acc, os)
    decreases i
  {
    var removed := os[..i] + os[i + 1..];
    if i == 0 {
      assert removed == os[1..];
    } else {
      assert removed[0] == os[0];
      assert removed[1..] == os[1..][..i - 1] + os[1..][i..];
      match os[0]
      case Fail =>
      case Skip => CollectIgnoresSkipped(acc, os[1..], i - 1);
      case Keep(kv) => CollectIgnoresSkipped(Assoc.Put(acc, kv.0, kv.1), os[1..], i - 1);
    }
  }

  /**
   * A property that is left out (its id unreadable, its key converting to None,
   * or its value unreadable) can be removed from the object without changing the
   * dict the other properties produce.
   */
  lemma ExcludedPropertyIrrelevant(ps: seq<Property>, i: nat)
    requires i < |ps|
    requires ps[i].0.None? || ToHost(ps[i].0.value) == Some(HNone) || ps[i].1.None?
    ensures ToHost(SObject(true, ps[..i] + ps[i + 1..])) == ToHost(SObject(true, ps))
  {
    var os := PropertyOutcomes(SObject(true, ps));
    var os' := PropertyOutcomes(SObject(true, ps[..i] + ps[i + 1..]));
    ExcludedIsSkipped(ps, i);
    OutcomesWithout(ps, i);
    CollectIgnoresSkipped([], os, i);
    IterableObject(ps);
    IterableObject(ps[..i] + ps[i + 1..]);
  }

  /** An iterable object converts to the dict its property loop collects, or fails with it. */
  lemma IterableObject(ps: seq<Property>)
    ensures ToHost(SObject(true, ps)) ==
      var d := Collect([], PropertyOutcomes(SObject(true, ps)));
      if d.Some? then Some(HDict(d.value)) else None
  {
  }

  lemma ExcludedIsSkipped(ps: seq<Property>, i: nat)
    requires i < |ps|
    requires ps[i].0.None? || ToHost(ps[i].0.value) == Some(HNone) || ps[i].1.None?
    ensures PropertyOutcomes(SObject(true, ps))[i] == Skip
  {
  }

  /** Removing a property removes its outcome and leaves the others in order. */
  lemma OutcomesWithout(ps: seq<Property>, i: nat)
    requires i < |ps|
    ensures PropertyOutcomes(SObject(true, ps[..i] + ps[i + 1..])) ==
      PropertyOutcomes(SObject(true, ps))[..i] + PropertyOutcomes(SObject(true, ps))[i + 1..]
  {
    var os := PropertyOutcomes(SObject(true, ps));
    var qs := ps[..i] + ps[i + 1..];
    var os' := PropertyOutcomes(SObject(true, qs));
    forall k | 0 <= k < |os'| ensures os'[k] == (os[..i] + os[i + 1..])[k] {
      if k < i {
        assert qs[k] == ps[k];
      } else {
        assert qs[k] == ps[k + 1];
      }
    }
  }

  // ---------------------------------------------------------------------------
  // Normal form

  lemma {:induction false} CompactKeepsCanonical(v: ScriptValue)
    requires v.SArray? && Compact(ElementOutcomes(v)).Some?
    requires forall i :: 0 <= i < |v.elements| && v.elements[i].Some? && ToHost(v.elements[i].value).Some? ==>
      Canonical(ToHost(v.elements[i].value).value)
    ensures forall k :: 0 <= k < |Compact(ElementOutcomes(v)).value| ==> Canonical(Compact(ElementOutcomes(v)).value[k])
  {
    var os := ElementOutcomes(v);
    CompactKeepsReadOrder(os);
    var xs := Compact(os).value;
    forall k | 0 <= k < |xs| ensures Canonical(xs[k]) {
      var i := KeptIndices(os)[k];
      assert os[i] == Keep(xs[k]);
    }
  }

  predicate CanonicalEntry(e: (HostValue, HostValue)) {
    e.0 != HNone && Canonical(e.0) && Canonical(e.1)
  }

  lemma {:induction false} PutAllKeepsCanonical(acc: seq<(HostValue, HostValue)>, us: seq<Option<(HostValue, HostValue)>>)
    requires forall e :: e in acc ==> CanonicalEntry(e)
    requires forall i :: 0 <= i < |us| && us[i].Some? ==> CanonicalEntry(us[i].value)
    ensures forall e :: e in Assoc.PutAll(acc, us) ==> CanonicalEntry(e)
    decreases |us|
  {
    if |us| > 0 {
      assert forall i :: 1 <= i < |us| ==> us[1..][i - 1] == us[i];
      match us[0]
      case None =>
        assert Assoc.PutAll(acc, us) == Assoc.PutAll(acc, us[1..]);
        PutAllKeepsCanonical(acc, us[1..]);
      case Some(kv) =>
        Assoc.PutEntries(acc, kv.0, kv.1);
        PutAllKeepsCanonical(Assoc.Put(acc, kv.0, kv.1), us[1..]);
    }
  }

  /**
   * Every host value the script side produces is in normal form: strings are
   * unicode, integers are longs, sequences are lists, dict keys are unique and
   * never None, datetimes carry no microseconds.
   */
  lemma {:induction false} ToHostCanonical(v: ScriptValue)
    requires ToHost(v).Some?
    ensures Canonical(ToHost(v).value)
    decreases v
  {
    match v
    case SArray(lengthRead, xs) =>
      if lengthRead {
        forall i | 0 <= i < |xs| && xs[i].Some? && ToHost(xs[i].value).Some?
          ensures Canonical(ToHost(xs[i].value).value)
        {
          ToHostCanonical(xs[i].value);
        }
        CompactKeepsCanonical(v);
      }
    case SObject(iterable, ps) =>
      if iterable {
        var os := PropertyOutcomes(v);
        var us := Updates(os);
        forall i | 0 <= i < |us| && us[i].Some? ensures CanonicalEntry(us[i].value) {
          assert os[i].Keep?;
          ToHostCanonical(ps[i].0.value);
          ToHostCanonical(ps[i].1.value);
        }
        PutAllKeepsCanonical([], us);
        Assoc.PutAllUniqueKeys([], us);
        var d := Assoc.PutAll([], us);
        assert forall i :: 0 <= i < |d| ==> CanonicalEntry(d[i]) by {
          forall i | 0 <= i < |d| ensures CanonicalEntry(d[i]) { assert d[i] in d; }
        }
      }
    case _ =>
  }
}

=== FILE: to_script.dfy ===
/**
 * Host to script: `to_javascript_object` and `populate_javascript_object`.
 */
module ToScript {
  import opened Wrappers
  import opened Values
  import Assoc

  /**
   * The engine integer a Python `int` or `long` becomes: `PyInt_AsLong` /
   * `PyLong_AsLong` (which answer -1 when the value does not fit a C long), then
   * `INT_TO_JSVAL`, whose parameter is a 32-bit int. There is no fallback to a
   * double.
   */
  function EngineInt(i: int): (r: int)
    ensures IsInt32(r)
    ensures IsInt32(i) ==> r == i
    ensures IsLong(i) ==> (r - i) % 0x1_0000_0000 == 0
    ensures !IsLong(i) ==> r == -1
  {
    Wrap32(AsLong(i))
  }

  /**
   * The property name a dict key gives: byte strings and unicode strings only,
   * handed to `JS_SetProperty` as a C string and so cut at the first NUL.
   */
  function PropertyName(key: HostValue): (r: Option<string>)
    ensures r.Some? <==> key.HStr? || key.HUnicode?
    ensures r.Some? ==> '\0' !in r.value && |r.value| <= |key.text| && r.value == key.text[..|r.value|]
    ensures r.Some? && |r.value| < |key.text| ==> key.text[|r.value|] == '\0'
  {
    match key
    case HStr(t) => Some(UpToNul(t))
    case HUnicode(t) => Some(UpToNul(t))
    case _ => None
  }

  /** The property id a named property has once set on an engine object. */
  function NameId(name: string): Option<ScriptValue> {
    Some(SString(name))
  }

  /**
   * `to_javascript_object`. The checks run in the source's order (byte string,
   * unicode, float, int, long, list, tuple, dict, datetime); whatever passes
   * none of them becomes the engine's null.
   */
  function ToScript(h: HostValue): (s: ScriptValue)
    decreases h, 2
    ensures s.SString? <==> h.HStr? || h.HUnicode?
    ensures s.SDouble? <==> h.HFloat?
    ensures s.SInt? <==> h.HBool? || h.HInt? || h.HLong?
    ensures s.SInt? ==> IsInt32(s.i)
    ensures s.SArray? <==> h.HList? || h.HTuple?
    ensures s.SObject? <==> h.HDict?
    ensures s.SDate? <==> h.HDateTime?
    ensures s.SNull? <==> h.HNone? || h.HOther?
    ensures !s.SUndefined? && !s.SBool?
  {
    match h
    case HStr(t) => SString(t)
    case HUnicode(t) => SString(t)
    case HFloat(d) => SDouble(d)
    // `bool` passes `PyInt_Check`; True and False extract as 1 and 0.
    case HBool(b) => SInt(if b then 1 else 0)
    case HInt(i) => SInt(EngineInt(i))
    case HLong(i) => SInt(EngineInt(i))
    case HList(_) => SArray(true, Elements(h))
    case HTuple(_) => SArray(true, Elements(h))
    case HDict(_) => SObject(true, Populate([], h))
    // `JS_NewDateObject` takes a zero-based month; microseconds are not passed.
    case HDateTime(y, mo, d, hh, mi, sec, _) =>
      SDate(DateReads(Some(y), Some(mo - 1), Some(d), Some(hh), Some(mi), Some(sec)))
    case HNone => SNull
    case HOther => SNull
  }

  /** A fresh array with element `i` set to the conversion of item `i`. */
  function Elements(h: HostValue): (r: seq<Option<ScriptValue>>)
    requires h.HList? || h.HTuple?
    decreases h, 0
  {
    seq(|h.items|, i requires 0 <= i < |h.items| => Some(ToScript(h.items[i])))
  }

  /**
   * `populate_javascript_object`: walk the dict and set one property per string
   * key, converting its value; entries with any other key are passed over.
   */
  function Populate(target: seq<Property>, dict: HostValue): (r: seq<Property>)
    requires dict.HDict?
    ensures forall k :: Assoc.HasKey(r, k) <==> Assoc.HasKey(target, k) || NamedBy(dict.entries, k)
    decreases dict, 1
  {
    var us := Bindings(dict);
    assert forall k :: Assoc.Updated(us, k) <==> NamedBy(dict.entries, k) by {
      forall k ensures Assoc.Updated(us, k) <==> NamedBy(dict.entries, k) {
        if Assoc.Updated(us, k) {
          var i :| 0 <= i < |us| && us[i].Some? && us[i].value.0 == k;
          assert PropertyName(dict.entries[i].0) == Some(k.value.text);
        }
        if NamedBy(dict.entries, k) {
          var i :| 0 <= i < |dict.entries| && PropertyName(dict.entries[i].0) == Some(k.value.text);
          assert us[i].Some? && us[i].value.0 == k;
        }
      }
    }
    Assoc.PutAll(target, us)
  }

  /** The property id `k` is the name some string key of the dict gives. */
  predicate NamedBy(es: seq<(HostValue, HostValue)>, k: Option<ScriptValue>) {
    k.Some? && k.value.SString? && exists i :: 0 <= i < |es| && PropertyName(es[i].0) == Some(k.value.text)
  }

  /** The property assignment each dict entry asks for, if its key is a string. */
  function Bindings(dict: HostValue): (r: seq<Option<(Option<ScriptValue>, Option<ScriptValue>)>>)
    requires dict.HDict?
    decreases dict, 0
  {
    var es := dict.entries;
    seq(|es|, i requires 0 <= i < |es| =>
      match PropertyName(es[i].0)
      case Some(name) => Some((NameId(name), Some(ToScript(es[i].1))))
      case None => None)
  }

  /** The value of the last entry whose key is a string spelling `name`. */
  function LastStringKeyed(es: seq<(HostValue, HostValue)>, name: string): Option<HostValue>
    decreases |es|
  {
    if |es| == 0 then None
    else match LastStringKeyed(es[1..], name)
      case Some(v) => Some(v)
      case None => if PropertyName(es[0].0) == Some(name) then Some(es[0].1) else None
  }

  lemma {:induction false} BindingsLastUpdate(es: seq<(HostValue, HostValue)>, k: Option<ScriptValue>)
    ensures Assoc.LastUpdate(Bindings(HDict(es)), k) ==
      if k.Some? && k.value.SString? && LastStringKeyed(es, k.value.text).Some?
      then Some(Some(ToScript(LastStringKeyed(es, k.value.text).value)))
      else None
    decreases |es|
  {
    if |es| > 0 {
      assert Bindings(HDict(es))[1..] == Bindings(HDict(es[1..]));
      BindingsLastUpdate(es[1..], k);
    }
  }

  /**
   * What a populated object exposes: a property named by a string key of the
   * dict holds the converted value of the last entry with that name; every other
   * property is as it was before.
   */
  lemma PopulateGet(target: seq<Property>, dict: HostValue, k: Option<ScriptValue>)
    requires dict.HDict?
    ensures Assoc.Get(Populate(target, dict), k) ==
      if k.Some? && k.value.SString? && LastStringKeyed(dict.entries, k.value.text).Some?
      then Some(Some(ToScript(LastStringKeyed(dict.entries, k.value.text).value)))
      else Assoc.Get(target, k)
  {
    assert dict == HDict(dict.entries);
    Assoc.PutAllGet(target, Bindings(dict), k);
    BindingsLastUpdate(dict.entries, k);
  }

  /**
   * The object a dict converts to has a property exactly for each string key,
   * holding the converted value of the last entry spelling that name, and no
   * property under any other id.
   */
  lemma DictObjectProperties(es: seq<(HostValue, HostValue)>, k: Option<ScriptValue>)
    ensures ToScript(HDict(es)).SObject? && ToScript(HDict(es)).iterable
    ensures Assoc.HasKey(ToScript(HDict(es)).properties, k) <==>
      k.Some? && k.value.SString? && LastStringKeyed(es, k.value.text).Some?
    ensures k.Some? && k.value.SString? && LastStringKeyed(es, k.value.text).Some? ==>
      Assoc.Get(ToScript(HDict(es)).properties, k) == Some(Some(ToScript(LastStringKeyed(es, k.value.text).value)))
    ensures Assoc.UniqueKeys(ToScript(HDict(es)).properties)
  {
    PopulateGet([], HDict(es), k);
    Assoc.PutAllUniqueKeys([], Bindings(HDict(es)));
  }

  /**
   * A list and a tuple with the same items give the same engine array: one
   * element per item, at the same index, each converted recursively.
   */
  lemma ListTupleCollapse(xs: seq<HostValue>)
    ensures ToScript(HList(xs)) == ToScript(HTuple(xs))
    ensures ToScript(HList(xs)).lengthRead && |ToScript(HList(xs)).elements| == |xs|
    ensures forall i :: 0 <= i < |xs| ==> ToScript(HList(xs)).elements[i] == Some(ToScript(xs[i]))
  {
  }

  /** Every engine integer the marshaler creates fits 32 bits, however deep it sits. */
  lemma {:induction false} ToScriptWellFormed(h: HostValue)
    ensures ScriptWellFormed(ToScript(h))
    decreases h
  {
    match h
    case HList(xs) =>
      forall i | 0 <= i < |xs| { ToScriptWellFormed(xs[i]); }
    case HTuple(xs) =>
      forall i | 0 <= i < |xs| { ToScriptWellFormed(xs[i]); }
    case HDict(es) =>
      var ps := Populate([], h);
      Assoc.PutAllUniqueKeys([], Bindings(h));
      forall i | 0 <= i < |ps|
        ensures ps[i].0.Some? ==> ScriptWellFormed(ps[i].0.value)
        ensures ps[i].1.Some? ==> ScriptWellFormed(ps[i].1.value)
      {
        UniqueGet(ps, i);
        PopulateGet([], h, ps[i].0);
        var n := ps[i].0.value.text;
        var v := LastStringKeyed(es, n).value;
        LastStringKeyedIsEntry(es, n);
        var j :| 0 <= j < |es| && es[j].1 == v;
        ToScriptWellFormed(es[j].1);
      }
    case _ =>
  }

  lemma {:induction false} LastStringKeyedIsEntry(es: seq<(HostValue, HostValue)>, name: string)
    ensures LastStringKeyed(es, name).Some? ==>
      exists j :: 0 <= j < |es| && es[j].1 == LastStringKeyed(es, name).value
    decreases |es|
  {
    if |es| > 0 {
      LastStringKeyedIsEntry(es[1..], name);
      if LastStringKeyed(es[1..], name).Some? {
        var j :| 0 <= j < |es[1..]| && es[1..][j].1 == LastStringKeyed(es[1..], name).value;
        assert es[j + 1].1 == LastStringKeyed(es, name).value;
      }
    }
  }

  /** In a table with unique keys, `Get` finds the entry at its own position. */
  lemma {:induction false} UniqueGet(ps: seq<Property>, i: nat)
    requires i < |ps|
    requires Assoc.UniqueKeys(ps)
    ensures Assoc.Get(ps, ps[i].0) == Some(ps[i].1)
    decreases i
  {
    if i > 0 {
      assert ps[0].0 != ps[i].0;
      assert Assoc.UniqueKeys(ps[1..]) by {
        forall a, b | 0 <= a < b < |ps[1..]| ensures ps[1..][a].0 != ps[1..][b].0 {
          assert ps[1..][a] == ps[a + 1] && ps[1..][b] == ps[b + 1];
        }
      }
      UniqueGet(ps[1..], i - 1);
    }
  }
}

=== FILE: values.dfy ===
/**
 * The two value models the marshaler translates between: Python 2 objects on the
 * host side, and SpiderMonkey values on the script side.
 */
module Values {
  import opened Wrappers
  import Assoc

  /**
   * An IEEE-754 double, carried as its bit pattern. Neither direction of the
   * marshaler computes with doubles; they are handed over unchanged (the engine's
   * canonicalisation of NaN bit patterns is not modelled).
   */
  datatype Double = Double(bits: bv64)

  /**
   * A Python 2 object as the marshaler's type checks see it. Each constructor is
   * one branch of the dispatch; `HBool` is separate because `bool` is a subclass
   * of `int`, and `HOther` stands for every object no branch accepts (a `date`,
   * a `set`, an instance, ...). `None` has no branch of its own either.
   */
  datatype HostValue =
    | HNone
    | HBool(b: bool)
    | HInt(i: int)                               // `int`, a C long
    | HLong(i: int)                              // `long`, unbounded
    | HFloat(d: Double)
    | HStr(text: string)                         // byte string, taken as the text it holds
    | HUnicode(text: string)
    | HList(items: seq<HostValue>)
    | HTuple(items: seq<HostValue>)
    | HDict(entries: seq<(HostValue, HostValue)>) // passed in: `PyDict_Next` order; built: see `Assoc`
    // The fields as `PyDateTime_GET_YEAR` and its siblings read them back from
    // the C struct; `tzinfo` is not modelled.
    | HDateTime(year: int, month: int, day: int, hour: int, minute: int, second: int, microsecond: int)
    | HOther

  /**
   * A SpiderMonkey value, together with what the engine answers when the
   * marshaler reads it. Every engine call that can fail is recorded as an
   * `Option` (or a flag) at the place where the marshaler makes it.
   */
  datatype ScriptValue =
    | SUndefined
    | SNull
    | SBool(b: bool)
    | SInt(i: int)                               // a jsval int, 32 bits wide
    | SDouble(d: Double)
    | SString(text: string)
    | SDate(accessors: DateReads)
      /** An array: whether its length could be read, and the read of each index below that length. */
    | SArray(lengthRead: bool, elements: seq<Option<ScriptValue>>)
      /** Any other object: whether a property iterator could be created, and what it enumerates. */
    | SObject(iterable: bool, properties: seq<(Option<ScriptValue>, Option<ScriptValue>)>)

  /**
   * One enumerated property: the property id turned into a value (`JS_IdToValue`)
   * and the property read (`JS_GetPropertyById`), each `None` when the call fails.
   */
  type Property = (Option<ScriptValue>, Option<ScriptValue>)

  /** The results of calling getFullYear, getMonth, getDate, getHours, getMinutes and getSeconds. */
  datatype DateReads = DateReads(
    year: Option<int>, month: Option<int>, day: Option<int>,
    hour: Option<int>, minute: Option<int>, second: Option<int>)

  const INT32_MIN: int := -0x8000_0000
  const INT32_MAX: int := 0x7fff_ffff
  const LONG_MIN: int := -0x8000_0000_0000_0000
  const LONG_MAX: int := 0x7fff_ffff_ffff_ffff

  predicate IsInt32(i: int) { INT32_MIN <= i <= INT32_MAX }

  /** Fits a C `long` on the LP64 platforms the extension is built for. */
  predicate IsLong(i: int) { LONG_MIN <= i <= LONG_MAX }

  /** Narrowing to a 32-bit signed integer: the unique int32 congruent to `i` modulo 2^32. */
  function Wrap32(i: int): (r: int)
    ensures IsInt32(r)
    ensures (r - i) % 0x1_0000_0000 == 0
    ensures IsInt32(i) ==> r == i
  {
    var m := (i - INT32_MIN) % 0x1_0000_0000;
    assert i - INT32_MIN == ((i - INT32_MIN) / 0x1_0000_0000) * 0x1_0000_0000 + m;
    m + INT32_MIN
  }

  /** `PyInt_AsLong` / `PyLong_AsLong`: the value if it fits a C long, else the error value -1. */
  function AsLong(i: int): (r: int)
    ensures IsLong(r)
    ensures IsLong(i) <==> r == i
    ensures !IsLong(i) ==> r == -1
  {
    if IsLong(i) then i else -1
  }

  /**
   * How a C `datetime` stores its fields: the year in two bytes and every other
   * field in one `unsigned char`. Storing keeps only the low bits.
   */
  const YEAR_MODULUS: nat := 0x1_0000
  const FIELD_MODULUS: nat := 0x100

  /** One of the two widths of a stored field. */
  predicate IsFieldWidth(modulus: nat) { modulus == YEAR_MODULUS || modulus == FIELD_MODULUS }

  /** `stored` is what a field `modulus` values wide keeps of `answered`. */
  predicate KeepsLowBits(stored: int, answered: int, modulus: nat)
    requires IsFieldWidth(modulus)
  {
    0 <= stored < modulus && (stored - answered) % modulus == 0
  }

  /** Storing `v` in a field `modulus` values wide. */
  function LowBits(v: int, modulus: nat): (r: int)
    requires IsFieldWidth(modulus)
    ensures KeepsLowBits(r, v, modulus)
    ensures 0 <= v < modulus ==> r == v
  {
    if modulus == YEAR_MODULUS then
      var r := v % YEAR_MODULUS;
      assert v == (v / YEAR_MODULUS) * YEAR_MODULUS + r;
      r
    else
      var r := v % FIELD_MODULUS;
      assert v == (v / FIELD_MODULUS) * FIELD_MODULUS + r;
      r
  }

  /**
   * `h` is the datetime `PyDateTime_FromDateAndTime` builds from these fields
   * and zero microseconds: each field keeps its low bits, nothing is checked.
   */
  predicate StoresFields(h: HostValue, year: int, month: int, day: int, hour: int, minute: int, second: int) {
    && h.HDateTime?
    && KeepsLowBits(h.year, year, YEAR_MODULUS)
    && KeepsLowBits(h.month, month, FIELD_MODULUS)
    && KeepsLowBits(h.day, day, FIELD_MODULUS)
    && KeepsLowBits(h.hour, hour, FIELD_MODULUS)
    && KeepsLowBits(h.minute, minute, FIELD_MODULUS)
    && KeepsLowBits(h.second, second, FIELD_MODULUS)
    && h.microsecond == 0
  }

  /**
   * A string read back as a C string: everything before the first NUL. Both
   * property names and strings returned to Python pass through one.
   */
  function UpToNul(t: string): (r: string)
    ensures |r| <= |t| && r == t[..|r|]
    ensures '\0' !in r
    ensures |r| < |t| ==> t[|r|] == '\0'
    ensures '\0' !in t ==> r == t
    decreases |t|
  {
    if |t| == 0 || t[0] == '\0' then [] else [t[0]] + UpToNul(t[1..])
  }

  /**
   * The host values the script-to-host direction can produce: no byte strings, no
   * plain ints, no tuples, no unrecognised objects; dict keys are unique and never
   * `None`; datetimes have no microseconds and every field within its C width.
   */
  predicate Canonical(h: HostValue) {
    match h
    case HNone => true
    case HBool(_) => true
    case HLong(_) => true
    case HFloat(_) => true
    case HUnicode(_) => true
    case HList(xs) => forall i :: 0 <= i < |xs| ==> Canonical(xs[i])
    case HDict(es) =>
      && Assoc.UniqueKeys(es)
      && forall i :: 0 <= i < |es| ==> es[i].0 != HNone && Canonical(es[i].0) && Canonical(es[i].1)
    case HDateTime(y, mo, d, hh, mi, s, us) =>
      && 0 <= y < YEAR_MODULUS
      && 0 <= mo < FIELD_MODULUS && 0 <= d < FIELD_MODULUS
      && 0 <= hh < FIELD_MODULUS && 0 <= mi < FIELD_MODULUS && 0 <= s < FIELD_MODULUS
      && us == 0
    case _ => false
  }

  /** Engine integers are 32 bits wide, at every depth. */
  predicate ScriptWellFormed(v: ScriptValue) {
    match v
    case SInt(i) => IsInt32(i)
    case SArray(_, xs) => forall i :: 0 <= i < |xs| && xs[i].Some? ==> ScriptWellFormed(xs[i].value)
    case SObject(_, ps) =>
      forall i :: 0 <= i < |ps| ==>
        (ps[i].0.Some? ==> ScriptWellFormed(ps[i].0.value)) && (ps[i].1.Some? ==> ScriptWellFormed(ps[i].1.value))
    case _ => true
  }
}

=== FILE: wrappers.dfy ===
/** The optional value used throughout the model for engine reads and conversions that can fail. */
module Wrappers {

  /** `None` stands for a failed engine call, or for a conversion that returned `NULL`. */
  datatype Option<+T> = None | Some(value: T)
}
